=== FILE: README.md ===
# Consultation state of the physiotherapy voice-assistant demo, in Dafny

The demo puts a voice agent in front of a patient. The agent, "Dr. Riya", collects symptoms, looks up appointment slots and books one. The browser page shows what the agent has gathered so far. This project models the pure logic that decides that picture. It is four groups of definitions, each with its properties proved:

- **Slot helpers** (`SlotFormat`, in `format_slots.dfy`).
  - The availability map of a slot search is turned into `"9:00 AM to 10:00 AM"` lines.
  - A slot line's start time is read back.
  - Weekday names are mapped to the three-letter codes the booking service expects.
- **The agent module's record** (`ConsultationStore`, `StagePrompt` and `TranscriptKeywords`).
  - This is the record of symptoms, appointment and assessment status.
  - It is changed by the consultation-update tool, the slot and booking tool results, and the keyword checks on transcript lines.
  - It is reset at session start and at clean-up.
  - The stage-change tool picks the system prompt for a stage.
- **The page's copy of the record** (`BraceScan` and `PageMerge`).
  - A brace scan cuts debug messages into `{…}` candidates.
  - Reported symptoms are normalised, then de-duplicated without regard to case.
  - The appointment merge keeps a mobile number.
  - Other inputs: the booking message's payment link, the once-a-second poll of the agent module's record, and the slot the user picks.
- **The sign-in form** (`FormValidation`).
  - The e-mail pattern and the ten-digit phone check.

JavaScript's own rules are spelled out in `JsValue` and `Text`. These cover truthiness and `||`, property reads (including the members every object literal inherits), `Object.entries` and spread, `includes`/`indexOf`/`split`/`trim`, and the `\s` class of regular expressions. Parsed JSON is a `Value`. `JSON.parse` itself is a parameter. So are the weekday of a date and the locale-formatted header line.

Behaviours of the code worth knowing, which the model follows:

- Hour 0 renders as `"0:00 AM"`, not `"12:00 AM"`.
- The agent module's update tool has no special case for `mobileNumber`. Only the page's merges have one.
- The update tool rethrows its errors instead of reporting success.
- Neither symptom merge compares incoming symptoms with each other. So two new symptoms with the same name in one report are both stored, and names are not unique in general.
- The page's merge of the module record runs on every debug message. Its "only if changed" test compares two serialisations whose property orders differ, so the test never stops it.

## Model

| member | source | states |
|---|---|---|
| SlotFormat.SlotKeyFrom | app/utils/format-slots-uti.ts:10-11 | the key match is the leftmost position where `slot_available_<digits>-<digits>` occurs; no match means no position matches |
| SlotFormat.MatchSlotKeyOfSlotKey | app/utils/format-slots-uti.ts:10-13 | the key pattern reads back exactly the two hours a slot key was built from |
| SlotFormat.DigitKeyNeverMatches | app/utils/format-slots-uti.ts:7-11 | an all-digit key (an array index) never matches the key pattern |
| SlotFormat.FormatHourRoundTrip | app/utils/format-slots-uti.ts:16-22 | for every hour of the day, reading the rendered 12-hour time gives the hour back |
| SlotFormat.FormatHourEdges | app/utils/format-slots-uti.ts:16-22 | 0 renders "0:00 AM", 12 renders "12:00 PM", 13 renders "1:00 PM"; there is no upper bound, so 24 renders like 12 |
| SlotFormat.FormatHourAfterNoon | app/utils/format-slots-uti.ts:16-22 | every hour past 12, with no upper bound, renders as "(h-12):00 PM"; read back it gives the hour again, except 24, which reads as noon |
| SlotFormat.FormatHour | app/utils/format-slots-uti.ts:16-22 | the rendered hour ends in "AM" for the hours before 12 and in "PM" for every other hour |
| SlotFormat.FormatEntriesIsFilterThenRender | app/utils/format-slots-uti.ts:7-26 | the output is one line per entry whose value is exactly "available" and whose key matches, rendered from that key, in entry order |
| SlotFormat.FormatEntriesAppend | app/utils/format-slots-uti.ts:7-29 | the output of a concatenated entry list is the concatenation of the outputs, so entry order is kept |
| SlotFormat.FormatDigitKeyedEntries | app/utils/format-slots-uti.ts:7-13 | entries with index keys (a spread array or string) yield no line |
| SlotFormat.FormatAvailableSlotsOfNonObject | app/utils/format-slots-uti.ts:3-7 | `null`, `undefined` and any other non-object slot map yield the empty list |
| SlotFormat.FormatAvailableSlots | app/utils/format-slots-uti.ts:2-30 | a slot map that is not an object (`null`, `undefined`, a string, a number) yields no line; what an object yields is stated by `FormatEntriesIsFilterThenRender` |
| SlotFormat.NineToTen | app/utils/format-slots-uti.ts:9-24 | the key for 9-10 is "slot_available_9-10" and its line is "9:00 AM to 10:00 AM" |
| SlotFormat.FormatAvailableSlotsExample | app/utils/format-slots-uti.ts:2-30 | a map with one available and one booked hour yields just the available hour's line |
| SlotFormat.ClockFrom | app/utils/format-slots-uti.ts:60 | the clock match is the leftmost position where `\d+:\d+\s*(AM\|PM)` matches, case-insensitively |
| SlotFormat.GetStartTimeFromSlot | app/utils/format-slots-uti.ts:56-65 | "" exactly for an empty slot or one where no clock time occurs; otherwise the leftmost substring the clock pattern matches, taken in full (no earlier position matches) |
| SlotFormat.StartTimeOfSlotLine | app/utils/format-slots-uti.ts:56-65 | round trip: the start time read from any rendered slot line is exactly its rendered start hour |
| SlotFormat.FirstSeparatorOfSlotLine | app/utils/format-slots-uti.ts:24 | the first " to " of a rendered slot line is the one between its two hours |
| SlotFormat.DayAbbreviation | app/utils/format-slots-uti.ts:41-53 | non-empty exactly for the seven English day names, and then the first three letters in lower case |
| SlotFormat.DayAbbreviationOfInheritedName | app/utils/format-slots-uti.ts:52 | the lookup as written returns the inherited `toString` for the name "toString" instead of "" |
| SlotFormat.DayAbbreviationAsWritten | app/utils/format-slots-uti.ts:41-52 | the lookup as written reads an inherited member exactly for a name that is not a day name but is a member every object inherits; for every other name it reads the intended abbreviation |
| SlotFormat.DayAbbreviationAgreesOffPrototype | app/utils/format-slots-uti.ts:42-52 | for every name that is not an inherited member, the lookup as written and the intended one agree |
| SlotFormat.GetDayFromDate | app/utils/format-slots-uti.ts:33-37 | "" for a falsy date, `undefined` for an invalid one, and otherwise the name at the date's weekday index in the Sunday-first table, a name that has an abbreviation |
| SlotFormat.GetDayFromDateByWeekday | app/utils/format-slots-uti.ts:37-53 | weekday 0 is Sunday, different weekdays give different names, and the name of weekday i abbreviates to the i-th of "sun" … "sat" |
| SlotFormat.WeekdayTable | app/utils/format-slots-uti.ts:37 | the day table lists Sunday to Saturday in order, and its seven names have seven distinct abbreviations |
| StagePrompt.SystemPrompt | app/demo-config.ts:295 | each declared stage selects its own prompt; an omitted or undeclared stage selects the initial prompt |
| StagePrompt.SystemPromptOfInheritedName | app/demo-config.ts:295 | the lookup as written returns the inherited `toString` for the stage "toString" instead of the initial prompt |
| StagePrompt.SystemPromptAsWritten | app/demo-config.ts:295 | the lookup as written reads an inherited member exactly when the stage name is a member every object inherits; otherwise it reads the intended prompt |
| StagePrompt.SystemPromptAgreesOffPrototype | app/demo-config.ts:295 | for every stage name that is not an inherited member, the lookup as written and the intended one agree |
| StagePrompt.ChangeStage | app/demo-config.ts:711-731 | the directive is "new-stage" with the "Jessica" voice, temperature 0.3 and English, and carries the requested stage's prompt or else the initial one |
| StagePrompt.ChangeStageAgainstAsWritten | app/demo-config.ts:295-731 | off the inherited names the directive carries exactly what the lookup as written reads; for "constructor" the lookup as written reads the inherited member while the directive carries the initial prompt |
| StagePrompt.ChangeStageDistinguishesStages | app/demo-config.ts:711-726 | with four distinct templates, two different declared stages never get the same prompt |
| ConsultationStore.Reset | app/demo-config.ts:327-331 | starting a session leaves no symptoms, an empty appointment and the status "Not started" |
| ConsultationStore.ResetIdempotent | app/demo-config.ts:698-702 | clean-up resets to the same record whatever was stored, and a second reset changes nothing |
| ConsultationStore.FirstUpdateAfterReset | app/demo-config.ts:739-748 | after a reset, the first update stores the reported symptoms exactly as they came |
| ConsultationStore.MergeSymptoms | app/demo-config.ts:739-749 | a single symptom is wrapped in a list; the stored list is a prefix of the result; the appended part is the ordered filter `NewSymptoms` of the incoming list, so each incoming item whose exact name no stored symptom has is appended as often as it occurs, and no other; a `null`/`undefined` item throws |
| ConsultationStore.NewSymptoms | app/demo-config.ts:745-746 | each incoming item whose name is not stored occurs in the result as often as in the batch; every other item is dropped |
| ConsultationStore.MergeSymptomsDropsKnownName | app/demo-config.ts:745-746 | an incoming symptom whose name is already stored is dropped, whatever its other fields say |
| ConsultationStore.MergeSymptomsKeepsRepeatsWithinOneCall | app/demo-config.ts:745-748 | two incoming symptoms with the same new name are both appended |
| ConsultationStore.MergeSymptomsIdempotent | app/demo-config.ts:739-748 | repeating an update (with string or scalar names) appends nothing the second time |
| ConsultationStore.MergeSymptomsKeepsItemsDefined | app/demo-config.ts:745-746 | the stored list never comes to hold `null` or `undefined` |
| ConsultationStore.UpdateConsultation | app/demo-config.ts:733-774 | without consultation data nothing changes; stored symptoms stay a prefix; no appointment key is lost; a truthy status stays truthy; with consultation data the status is the payload's truthy status or the old one, and each appointment key holds the payload's value when the payload appointment has it, the old value otherwise |
| ConsultationStore.UpdateConsultationFields | app/demo-config.ts:737-763 | each field of the new record depends only on its own part of the payload: the status is the payload's truthy status or the old one, and each appointment key is the payload's value or the old one |
| ConsultationStore.UpdateConsultationThrows | app/demo-config.ts:739-746 | the update throws exactly when truthy symptoms carry a `null`/`undefined` item, or the stored list does |
| ConsultationStore.ProcessSlotData | app/demo-config.ts:502-541 | without `hourly_slots` nothing changes; otherwise the inline loop stores exactly `formatAvailableSlots` of the same map, and date, type and campus are copied only with search criteria; the result is the reference update `SlotDataUpdate` |
| ConsultationStore.SlotDataUpdate | app/demo-config.ts:502-541 | symptoms and status stay; without a truthy slot map nothing changes; otherwise the appointment gains exactly `availableSlots`, holding `formatAvailableSlots` of the map, plus date, type and campus from truthy search criteria, and every other key keeps its value |
| ConsultationStore.FormatAvailableSlotsMessage | app/demo-config.ts:446-498 | null without slots or criteria; the no-slots line when no slot qualifies; otherwise "- " plus each line `formatAvailableSlots` gives, then the closing question; the loop computes the reference message `SlotMessage` |
| ConsultationStore.SlotMessage | app/demo-config.ts:446-498 | no message exactly when the slot data, its criteria or its slot map is falsy; a message starts with the header line and ends with the no-slots line when no slot qualifies, or else with a blank line and the closing question |
| ConsultationStore.BookingTime | app/demo-config.ts:395 | a string exactly when the start time contains a space, and `undefined` otherwise |
| ConsultationStore.BookingTimeIsSecondField | app/demo-config.ts:395 | the time read is the second space-separated field: it holds no space, follows the first field and a space, and ends the string or is followed by a space |
| ConsultationStore.SecondFieldShape | app/demo-config.ts:395 | `split(' ')` yields a second field exactly when the string holds a space, and that field has the shape above |
| ConsultationStore.BookingTimeOfDateAndClock | app/demo-config.ts:395 | a "date clock" start time yields its clock part |
| ConsultationStore.BookingMerge | app/demo-config.ts:386-399 | applies only with truthy `success` and `appointmentInfo` and a string start time; then the status is "Confirmed", doctor, date and consultation type are copied from the appointment info, the time is the start time's second field, the payment link and booking id are the payment's values or `''`, the seven booking keys are added and every other stored key stays |
| ConsultationStore.BookedAppointment | app/demo-config.ts:390-398 | the stored keys plus the seven booking keys, each booking key holding its source value, every other key kept |
| ConsultationStore.BookingMergeIdempotent | app/demo-config.ts:386-399 | applying the same booking result twice stores what applying it once stores |
| ConsultationStore.BookingMergeOfTypicalResult | app/demo-config.ts:386-399 | a typical booking result stores its doctor, its clock time, its short link and an empty booking id |
| ConsultationStore.OnToolResult | app/demo-config.ts:352-407 | a slot fetch stores `SlotDataUpdate` and prepends `SlotMessage`, which is present exactly when it has slots and criteria; a booking result goes to the booking merge; unparsable results and other tools change nothing |
| TranscriptKeywords.FirstMatchFrom | app/demo-config.ts:584-588 | the chosen index is the first keyword present in the text; none is chosen only when no keyword is present |
| TranscriptKeywords.FirstMatchPriority | app/demo-config.ts:584-610 | a keyword that is present is either chosen or beaten by an earlier one |
| TranscriptKeywords.Choose | app/demo-config.ts:575-622 | a chain assigns a value exactly when one of its keywords is present, and then the value paired with the first keyword present |
| TranscriptKeywords.WriteChoicesFields | app/demo-config.ts:575-622 | each field gets its own chain's choice, the centre and campus id together, and nothing outside the keyword fields changes |
| TranscriptKeywords.CityPriority | app/demo-config.ts:584-588 | Bangalore is checked before Hyderabad; with neither, the city stays as it was |
| TranscriptKeywords.CentrePriority | app/demo-config.ts:591-603 | the first centre present, in the order Indiranagar, Whitefield, Banjara Hills, Madhapur, sets both centre and campus id |
| TranscriptKeywords.WeekPriority | app/demo-config.ts:606-610 | "this week" is checked before "next week" |
| TranscriptKeywords.ConsultationTypeIgnoresCase | app/demo-config.ts:575-581 | the online phrase is found in any letter case and sets both type fields to "Online" |
| TranscriptKeywords.DaySelection | app/demo-config.ts:613-622 | the first of Monday to Saturday present sets the day, and its abbreviation is the one the slot helper gives that day |
| TranscriptKeywords.SundayNeverSelected | app/demo-config.ts:613-622 | the transcript "Sunday" selects no day, so the day stays as it was |
| TranscriptKeywords.ConfirmationPhraseConfirms | app/demo-config.ts:650-651 | a confirmation phrase sets the status to "Confirmed" |
| TranscriptKeywords.ApplyTranscriptKeywords | app/demo-config.ts:575-651 | the keyword checks and the confirmation check together: every field outside the keyword fields keeps its value, and the status is "Confirmed" when the confirmation check fires and unchanged otherwise |
| TranscriptKeywords.KeywordsLeaveOtherFields | app/demo-config.ts:573-622 | the keyword checks write only their own fields |
| BraceScan.ScanCandidates | app/page.tsx:677-696 | with a `}` that closes nothing ignored: the candidates are exactly the top-level brace-balanced spans, in increasing, non-overlapping order, each a balanced object and the text of its span; a message without `{` yields none; the spans are those of the recursive definition `ScanClamped` |
| BraceScan.ScanClamped | app/page.tsx:677-696 | the reference scan with a stray `}` ignored finds at most one span per remaining character |
| BraceScan.ScanClampedFrom | app/page.tsx:677-696 | from any point of the scan, the spans already closed followed by the rest of the scan are exactly the candidates of the message, in increasing, non-overlapping order |
| BraceScan.ScanClampedSpans | app/page.tsx:677-696 | the corrected scan of a whole message yields exactly its top-level brace-balanced candidates, in increasing, non-overlapping order |
| BraceScan.CandidateIsBalanced | app/page.tsx:682-695 | a candidate starts with `{`, ends with `}`, has as many `}` as `{`, and every proper prefix has positive depth |
| BraceScan.CandidateSurvivesTrimCheck | app/page.tsx:702 | the trim/startsWith/endsWith test before parsing accepts every candidate |
| BraceScan.StrayClosingBraceHidesObject | app/page.tsx:688-689 | with the count as written, "}{}" yields no candidate, though "{}" in it is a balanced top-level object that the corrected scan finds |
| BraceScan.StrayClosingBraceExposesInner | app/page.tsx:688-689 | with the count as written, "}{{}" yields the inner "{}" of an unclosed object, which is no top-level candidate; the corrected scan yields nothing |
| BraceScan.ScanAsWritten | app/page.tsx:682-695 | the scan as written (count never clamped) yields spans in increasing, non-overlapping order, each covering a balanced object; a message without `{` yields none |
| BraceScan.ScanAgreesWithoutStrayBrace | app/page.tsx:682-695 | from any point of the scan, while the count never falls below zero the scan as written and the corrected scan find the same spans |
| BraceScan.ScanAsWrittenAgrees | app/page.tsx:682-695 | when no prefix of the message holds more `}` than `{`, the scan as written finds exactly the corrected scan's spans |
| BraceScan.SpanTexts | app/page.tsx:691 | one text per span, each the substring the span covers |
| PageMerge.MobileNumber | app/page.tsx:778 | the new mobile number if truthy, else the stored one if truthy, else the session phone; a truthy stored number is never lost |
| PageMerge.MergeAppointment | app/page.tsx:775-779 | incoming keys win, every other stored key stays, no key is lost, and the mobile number follows the rule above |
| PageMerge.MergeAppointmentIdempotent | app/page.tsx:775-779 | merging the same appointment data twice is merging it once |
| PageMerge.SpreadReadsOwnProperty | app/page.tsx:776-778 | the mobile number read off the spread copy is the one read off the reported appointment |
| PageMerge.NormalizeSymptom | app/page.tsx:721-742 | a string or an object is kept; `null`, numbers and booleans are dropped |
| PageMerge.NormalizeAll | app/page.tsx:721-742 | the normalised list is no longer than the input and every item in it is an object |
| PageMerge.NormalizedFields | app/page.tsx:722-739 | a string becomes that symptom with five "Not specified" details; an object has each falsy field defaulted, the name to "Unknown symptom" |
| PageMerge.NormalizeAllKeepsOrder | app/page.tsx:721-742 | the normalised list is the kept items, each normalised, in their original order |
| PageMerge.NameKey | app/page.tsx:749-754 | the lower-cased name is defined unless the item is `null`/`undefined` or has a truthy non-string name, where the read throws |
| PageMerge.MergeUnique | app/page.tsx:747-760 | the stored list is a prefix; the appended part is the ordered filter `UnseenSymptoms` of the batch, so each incoming item whose lower-cased name no stored symptom has is appended as often as it occurs, and no other |
| PageMerge.UnseenSymptoms | app/page.tsx:753-758 | each incoming item whose lower-cased name is not stored occurs in the result as often as in the batch; every other item is dropped |
| PageMerge.MergeUniqueDropsCaseVariant | app/page.tsx:753-754 | a symptom whose name differs from a stored one only in letter case is dropped |
| PageMerge.MergeUniqueKeepsRepeatsWithinBatch | app/page.tsx:753-758 | two incoming symptoms with the same new name are both appended |
| PageMerge.MergeUniqueIdempotent | app/page.tsx:747-758 | merging the same batch twice adds nothing the second time |
| PageMerge.SelectConsultationData | app/page.tsx:706-710 | the first truthy of `consultationData`, `value.consultationData` and `value`, in that order, else the parsed object itself; a truthy parsed object gives truthy data |
| PageMerge.ApplySymptoms | app/page.tsx:714-761 | without truthy symptoms, or when none survives normalising, nothing changes; otherwise it throws exactly when the case-insensitive merge of the normalised symptoms throws, and else stores that merge and the status `obj.assessmentStatus \|\| old`, leaving the appointment untouched |
| PageMerge.ApplyAppointment | app/page.tsx:770-784 | only an object or array appointment is merged; then incoming keys win, every other stored key stays, no key is lost, and the mobile number follows the mobile-number rule |
| PageMerge.ApplyStatus | app/page.tsx:787-796 | only a truthy string status replaces the stored one |
| PageMerge.ApplyParsed | app/page.tsx:706-797 | data that is not an object changes nothing; stored symptoms are never removed |
| PageMerge.ApplyCandidates | app/page.tsx:698-803 | candidates that do not parse are skipped; stored symptoms are never removed |
| PageMerge.MergeFresh | app/page.tsx:889-897 | a non-empty symptom list replaces the page's, an empty one keeps it; a truthy status replaces the page's; in the appointment incoming keys win, other keys stay, and the mobile number follows the mobile-number rule |
| PageMerge.PollMerge | app/page.tsx:562-592 | nothing changes unless symptoms, status or appointment differ; otherwise the merge above |
| PageMerge.MergeFreshIdempotent | app/page.tsx:889-897 | merging the same module record twice is merging it once |
| PageMerge.PollMergeIdempotent | app/page.tsx:562-592 | polling the same record twice is polling it once |
| PageMerge.RzpLinkAt | app/page.tsx:655 | a link match is the prefix "https://rzp.io/" followed by the maximal run of non-space characters, at least one |
| PageMerge.RzpLinkFrom | app/page.tsx:655 | the link found is the leftmost match; none means no position matches |
| PageMerge.FindRzpLink | app/page.tsx:655-656 | a link is found exactly when some position matches; it is the match at the leftmost such position, running to the next white space or the end; it lies in the message, starts with the prefix and has more after it |
| PageMerge.ApplyBookingLink | app/page.tsx:651-671 | with a booking phrase and a link, the link is stored, the status is "Confirmed", the stored or session mobile number is kept, and nothing else changes; otherwise nothing changes |
| PageMerge.ApplyBookingLinkIdempotent | app/page.tsx:658-666 | the same booking message twice has the effect of once |
| PageMerge.ApplyDebugMessage | app/page.tsx:641-907 | an empty message changes nothing; otherwise the booking-link step, the candidates of the corrected scan in order, then the module record's merge (`DebugMessageResult`), so the module's non-empty symptoms and truthy status end up on the page and the mobile number is set once the session has a phone |
| PageMerge.DebugMessageAsWrittenAgrees | app/page.tsx:677-803 | when no prefix of the message has more `}` than `{`, the handler ends in the same state with the page's own scan as with the corrected one |
| PageMerge.SelectSlot | app/page.tsx:518-527 | `selectedTime` is the slot, `time` the text before its first " to ", and nothing else changes |
| PageMerge.SelectSlotOfSlotLine | app/page.tsx:521 | for a rendered slot line the stored time is its start hour, which is also what `getStartTimeFromSlot` reads back |
| FormValidation.IsEmailIffShape | app/page.tsx:189 | the scan accepts exactly the addresses `local@domain.top` whose three parts are non-empty and free of white space and `@` |
| FormValidation.ValidateForm | app/page.tsx:188-192 | the form is valid exactly for an address of that shape together with ten ASCII digits |

## Left out

- Rendering, React hooks and the one-second timer. The poll is modelled as one merge step.
- The Ultravox session, `addMessage`, the event dispatch, the REST calls and the durable tools. These are I/O.
- `JSON.parse` is a parameter. `JSON.stringify` comparisons are taken as equality of values, so property order and properties holding `undefined` are not modelled.
- `new Date(...)`, `getDay()` and `toLocaleDateString`. The weekday index and the slot message's header line are parameters.
- The regular-expression scrapers are not modelled, because they have no stated contract. These are the symptom phrases in `handleDebugMessage`, the name, ID, doctor, mobile and link patterns of the transcript scraper, its slot-list pattern, and the nested-brace pattern of `parseConsultationData`. `PageMerge.ApplyDebugMessage` skips the symptom-phrase step between the candidates and the merge of the module record.
- Prompt texts are reduced to four non-empty strings. The temperature 0.3 is kept as 3 tenths.
- Numbers are integers. `parseInt` beyond 2^53, fractions and NaN are not modelled.
- Races between asynchronous callbacks are not modelled. Slot selection uses the record of the current render.
- `toLowerCase` is modelled on ASCII letters only. For non-ASCII symptom names the case-insensitive comparison is weaker than the source's.
- Integer keys enumerate first in `Object.entries`. The model keeps the given entry order instead. Keys of the form `slot_available_…` are never integer keys, so the slot output does not depend on this.
- `handleChangeStage`, the session's handler for new stages, builds the same directive as `changeStageImpl`. It is modelled by `StagePrompt.ChangeStage`.
- `PageMerge.SelectSlot` models the branch where a session exists and `addMessage` succeeds. Otherwise the record is untouched.
- ScanCandidates: models the scan with a `}` that closes nothing ignored, not the count as written. The two find the same spans when no prefix holds more `}` than `{` (`BraceScan.ScanAsWrittenAgrees`). Otherwise they differ both ways: the page misses an object after a stray `}` and can take an inner `{}` of an unclosed object. `BraceScan.ScanAsWritten` models the page's scan and carries the same ordering and balance properties.
- ChangeStage: the directive is built on the corrected lookup `SystemPrompt`. As written (`app/demo-config.ts`, line 717 calling line 295), a stage name that every object inherits, such as "constructor", hands the inherited member to the session as the system prompt; `StagePrompt.SystemPromptAsWritten` models that read and `StagePrompt.ChangeStageAgainstAsWritten` states where the two differ.
- ApplyDebugMessage: runs the corrected scan. For a message with a stray `}`, the page as written parses the spans of `BraceScan.ScanAsWritten` instead. `PageMerge.DebugMessageAsWrittenAgrees` shows that the two handlers agree on every other message.
- `ConsultationStore.MergeSymptomsIdempotent` assumes that no incoming name is an object. Such names never match under `Set.has`, so they are appended again each time.

## Findings

| source | as written | input that shows it | evidently intended | confidence | as-written member | corrected member |
|---|---|---|---|---|---|---|
| app/utils/format-slots-uti.ts:52 | `days[dayName] \|\| ''` also reads members every object inherits | `getDayAbbreviation("toString")` returns the `toString` function | "" for every name other than the seven day names | high (not executed) | SlotFormat.DayAbbreviationOfInheritedName | SlotFormat.DayAbbreviation |
| app/demo-config.ts:295 | `agentPrompts[currentStage] \|\| agentPrompts.initial` also reads inherited members | `changeStage({newStage: "constructor"})` hands the `Object` constructor to the session as the system prompt | the initial prompt for every undeclared stage | high (not executed) | StagePrompt.SystemPromptOfInheritedName | StagePrompt.SystemPrompt |
| app/page.tsx:688-689 | the brace count is decremented below zero by a `}` that closes nothing, and never reset | the message `}{"symptoms":["pain"]}` yields no candidate, so the object is never parsed; the other way round, `}{{}` yields the inner `{}` of an unclosed object | a `}` with nothing open is ignored, so the following object is still found and only top-level objects are taken | medium (not executed) | BraceScan.StrayClosingBraceHidesObject | BraceScan.ScanCandidates |

The model uses the corrected members. `StagePrompt.ChangeStage` uses `SystemPrompt`. `TranscriptKeywords.DaySelection` is stated with `DayAbbreviation`. `PageMerge.ApplyDebugMessage` scans with `ScanCandidates`.

=== FILE: brace_scan.dfy ===
/** The scan of a debug message for balanced `{…}` substrings that might be JSON objects:
    a running brace depth, the position where the current top-level object began, and a
    candidate each time the depth falls back to zero. */
module BraceScan {
  import opened Text

  /** A substring `msg[start..end]`. */
  datatype Span = Span(start: nat, end: nat)

  /** The brace balance of one character. */
  function Delta(c: char): int {
    if c == '{' then 1 else if c == '}' then -1 else 0
  }

  /** The brace balance of a string: openings minus closings. */
  function Net(t: string): int
    decreases |t|
  {
    if |t| == 0 then 0 else Net(t[..|t| - 1]) + Delta(t[|t| - 1])
  }

  /** The depth after one more character when a `}` with nothing open is ignored. */
  function StepDepth(d: nat, c: char): nat {
    if c == '{' then d + 1 else if c == '}' then (if d > 0 then d - 1 else 0) else d
  }

  /** The depth after reading `t` from the start. */
  function Depth(t: string): nat
    decreases |t|
  {
    if |t| == 0 then 0 else StepDepth(Depth(t[..|t| - 1]), t[|t| - 1])
  }

  lemma DepthStep(msg: string, i: nat)
    requires i < |msg|
    ensures Depth(msg[..i + 1]) == StepDepth(Depth(msg[..i]), msg[i])
  {
    assert msg[..i + 1][..i] == msg[..i];
  }

  /** A top-level object: it opens with `{` at depth zero, the depth stays positive inside
      it, and it is back at zero right after its closing brace. */
  predicate IsCandidate(msg: string, sp: Span) {
    && sp.start < sp.end <= |msg|
    && msg[sp.start] == '{'
    && Depth(msg[..sp.start]) == 0
    && Depth(msg[..sp.end]) == 0
    && forall j :: sp.start < j < sp.end ==> Depth(msg[..j]) > 0
  }

  /** What every candidate looks like: it starts with `{` and ends with `}`, holds as many
      closing as opening braces, and every proper prefix has more openings than closings. */
  predicate IsBalancedObject(c: string) {
    && |c| >= 2
    && c[0] == '{'
    && c[|c| - 1] == '}'
    && Net(c) == 0
    && forall k :: 0 < k < |c| ==> Net(c[..k]) > 0
  }

  /** Inside a candidate nothing is ignored, so the depth is the balance since its start. */
  lemma {:induction false} DepthInsideCandidate(msg: string, sp: Span, j: nat)
    requires IsCandidate(msg, sp) && sp.start <= j <= sp.end
    ensures Depth(msg[..j]) == Net(msg[sp.start..j])
    decreases j
  {
    if j > sp.start {
      DepthInsideCandidate(msg, sp, j - 1);
      DepthStep(msg, j - 1);
      assert msg[sp.start..j][..j - 1 - sp.start] == msg[sp.start..j - 1];
      assert msg[sp.start..j][j - 1 - sp.start] == msg[j - 1];
    } else {
      assert msg[sp.start..j] == [];
    }
  }

  /** Every candidate span covers a balanced object. */
  lemma CandidateIsBalanced(msg: string, sp: Span)
    requires IsCandidate(msg, sp)
    ensures IsBalancedObject(msg[sp.start..sp.end])
  {
    var s, e := sp.start, sp.end;
    var c := msg[s..e];
    DepthInsideCandidate(msg, sp, e);
    DepthInsideCandidate(msg, sp, s + 1);
    assert msg[s..s + 1][..0] == [];
    assert Net(msg[s..s + 1]) == 1;
    assert e >= s + 2;
    forall k | 0 < k < |c|
      ensures Net(c[..k]) > 0
    {
      DepthInsideCandidate(msg, sp, s + k);
      assert c[..k] == msg[s..s + k];
    }
    assert Net(c[..|c| - 1]) > 0;
    assert Net(c) == Net(c[..|c| - 1]) + Delta(c[|c| - 1]);
  }

  /** `candidate.trim()` leaves a balanced object as it is, so the scanner's
      `startsWith('{') && endsWith('}')` test never rejects a candidate. */
  lemma CandidateSurvivesTrimCheck(c: string)
    requires IsBalancedObject(c)
    ensures Trim(c) == c && Trim(c)[0] == '{' && Trim(c)[|Trim(c)| - 1] == '}'
  {
    assert TrimStart(c) == c;
  }

  /** Two positions at depth zero cannot both open a candidate that closes at `end`. */
  lemma CandidateStartIsUnique(msg: string, sp: Span, s0: nat)
    requires IsCandidate(msg, sp)
    requires s0 < sp.end && Depth(msg[..s0]) == 0
    requires forall j :: s0 < j < sp.end ==> Depth(msg[..j]) > 0
    ensures sp.start == s0
  {
  }

  /** A candidate closes at `i + 1` only where a `}` brings depth one down to zero. */
  lemma CandidateEnd(msg: string, i: nat)
    requires i < |msg|
    requires !(msg[i] == '}' && Depth(msg[..i]) == 1)
    ensures forall sp :: IsCandidate(msg, sp) ==> sp.end != i + 1
  {
    DepthStep(msg, i);
  }

  /** What the scan knows after reading `msg[..i]`: the depth so far, where the open
      top-level object began (-1 when none is open), and every candidate already closed,
      in order. */
  ghost predicate ScanInv(msg: string, i: nat, count: nat, start: int, spans: seq<Span>) {
    && i <= |msg|
    && count == Depth(msg[..i])
    && (start == -1) == (count == 0)
    && (start != -1 ==> 0 <= start < i && msg[start] == '{' && Depth(msg[..start]) == 0)
    && (start != -1 ==> forall j :: start < j <= i ==> Depth(msg[..j]) > 0)
    && (forall k :: 0 <= k < |spans| ==> IsCandidate(msg, spans[k]) && spans[k].end <= i)
    && (forall sp :: IsCandidate(msg, sp) && sp.end <= i ==> sp in spans)
    && (forall k, l :: 0 <= k < l < |spans| ==> spans[k].end <= spans[l].start)
    && (start != -1 ==> forall k :: 0 <= k < |spans| ==> spans[k].end <= start)
  }

  /** A `}` at depth one closes the open object, which is the one candidate ending there. */
  lemma ScanClose(msg: string, i: nat, start: int, spans: seq<Span>)
    requires ScanInv(msg, i, 1, start, spans) && i < |msg| && msg[i] == '}'
    ensures start >= 0 && ScanInv(msg, i + 1, 0, -1, spans + [Span(start, i + 1)])
  {
    DepthStep(msg, i);
    var sp := Span(start, i + 1);
    assert IsCandidate(msg, sp);
    forall other | IsCandidate(msg, other) && other.end == i + 1
      ensures other == sp
    {
      CandidateStartIsUnique(msg, other, start);
    }
  }

  /** Any other character closes no candidate; a `{` at depth zero opens one. */
  lemma ScanOther(msg: string, i: nat, count: nat, start: int, spans: seq<Span>)
    requires ScanInv(msg, i, count, start, spans) && i < |msg|
    requires !(msg[i] == '}' && count == 1)
    ensures ScanInv(msg, i + 1, StepDepth(count, msg[i]),
                    if msg[i] == '{' && count == 0 then i else start, spans)
  {
    DepthStep(msg, i);
    CandidateEnd(msg, i);
  }

  /** At the end of the message the spans found are exactly the candidates, in order. */
  lemma ScanFinish(msg: string, count: nat, start: int, spans: seq<Span>)
    requires ScanInv(msg, |msg|, count, start, spans)
    ensures forall k :: 0 <= k < |spans| ==> IsCandidate(msg, spans[k])
    ensures forall sp :: IsCandidate(msg, sp) ==> sp in spans
    ensures forall k, l :: 0 <= k < l < |spans| ==> spans[k].end <= spans[l].start
    ensures (forall i :: 0 <= i < |msg| ==> msg[i] != '{') ==> spans == []
  {
    if |spans| > 0 {
      assert IsCandidate(msg, spans[0]);
    }
  }

  /** The substrings the spans cover, in order (an out-of-range span covers nothing). */
  function SpanTexts(msg: string, spans: seq<Span>): (r: seq<string>)
    ensures |r| == |spans|
    ensures forall k :: 0 <= k < |spans| && spans[k].start <= spans[k].end <= |msg| ==>
      r[k] == msg[spans[k].start..spans[k].end]
  {
    seq(|spans|, k requires 0 <= k < |spans| =>
      if spans[k].start <= spans[k].end <= |msg| then msg[spans[k].start..spans[k].end] else "")
  }

  /** Texts given one by one for in-range spans are the spans' texts. */
  lemma SpanTextsOf(msg: string, spans: seq<Span>, cands: seq<string>)
    requires TextsAgree(msg, spans, cands)
    ensures cands == SpanTexts(msg, spans)
  {
  }

  /** `cands[k]` is the text of `spans[k]`, for every `k`. */
  ghost predicate TextsAgree(msg: string, spans: seq<Span>, cands: seq<string>) {
    && |cands| == |spans|
    && forall k :: 0 <= k < |spans| ==>
         spans[k].start <= spans[k].end <= |msg| && cands[k] == msg[spans[k].start..spans[k].end]
  }

  /** Appending a span and its text keeps the texts in step with the spans. */
  lemma TextsAgreeSnoc(msg: string, spans: seq<Span>, cands: seq<string>, sp: Span)
    requires TextsAgree(msg, spans, cands) && sp.start <= sp.end <= |msg|
    ensures TextsAgree(msg, spans + [sp], cands + [msg[sp.start..sp.end]])
  {
  }

  /** One step of the corrected scan. */
  lemma ClampedStep(msg: string, i: nat, count: nat, start: int)
    requires i < |msg| && start >= -1 && (count == 1 ==> start != -1)
    ensures ScanClamped(msg, i, count, start)
         == if msg[i] == '}' && count == 1 then [Span(start, i + 1)] + ScanClamped(msg, i + 1, 0, -1)
            else ScanClamped(msg, i + 1, StepDepth(count, msg[i]), if msg[i] == '{' && count == 0 then i else start)
  {
  }

  /** Closing the open object moves its span from the rest of the corrected scan to the
      spans found. */
  lemma ClampedClose(msg: string, i: nat, start: int, spans: seq<Span>)
    requires i < |msg| && msg[i] == '}' && start >= 0
    requires spans + ScanClamped(msg, i, 1, start) == ScanClamped(msg, 0, 0, -1)
    ensures (spans + [Span(start, i + 1)]) + ScanClamped(msg, i + 1, 0, -1) == ScanClamped(msg, 0, 0, -1)
  {
    ClampedStep(msg, i, 1, start);
    assert spans + ([Span(start, i + 1)] + ScanClamped(msg, i + 1, 0, -1))
        == (spans + [Span(start, i + 1)]) + ScanClamped(msg, i + 1, 0, -1);
  }

  /** Any other character finds no span. */
  lemma ClampedOther(msg: string, i: nat, count: nat, start: int, spans: seq<Span>)
    requires i < |msg| && start >= -1 && (count == 1 ==> start != -1)
    requires !(msg[i] == '}' && count == 1)
    requires spans + ScanClamped(msg, i, count, start) == ScanClamped(msg, 0, 0, -1)
    ensures spans + ScanClamped(msg, i + 1, StepDepth(count, msg[i]),
                                if msg[i] == '{' && count == 0 then i else start)
         == ScanClamped(msg, 0, 0, -1)
  {
    ClampedStep(msg, i, count, start);
  }

  /** The candidate scan of `handleDebugMessage`, with a `}` that closes nothing ignored.
      It returns the candidate substrings and where each lies in the message. */
  method ScanCandidates(msg: string) returns (cands: seq<string>, spans: seq<Span>)
    ensures |cands| == |spans|
    ensures forall k :: 0 <= k < |spans| ==>
      IsCandidate(msg, spans[k]) && cands[k] == msg[spans[k].start..spans[k].end]
    ensures forall sp :: IsCandidate(msg, sp) ==> sp in spans
    ensures forall k, l :: 0 <= k < l < |spans| ==> spans[k].end <= spans[l].start
    ensures forall k :: 0 <= k < |cands| ==> IsBalancedObject(cands[k])
    ensures (forall i :: 0 <= i < |msg| ==> msg[i] != '{') ==> cands == []
    ensures spans == ScanClamped(msg, 0, 0, -1)
    ensures cands == SpanTexts(msg, spans)
  {
    var count: nat := 0;
    var start: int := -1;
    cands, spans := [], [];
    var i := 0;
    while i < |msg|
      invariant i <= |msg| && start >= -1 && (count > 0 ==> 0 <= start < i)
      invariant TextsAgree(msg, spans, cands)
      invariant spans + ScanClamped(msg, i, count, start) == ScanClamped(msg, 0, 0, -1)
    {
      if msg[i] == '}' && count == 1 {
        ClampedClose(msg, i, start, spans);
        TextsAgreeSnoc(msg, spans, cands, Span(start, i + 1));
        count := 0;
        spans := spans + [Span(start, i + 1)];
        cands := cands + [msg[start..i + 1]];
        start := -1;
      } else {
        ClampedOther(msg, i, count, start, spans);
        start := if msg[i] == '{' && count == 0 then i else start;
        count := StepDepth(count, msg[i]);
      }
      i := i + 1;
    }
    assert spans + [] == spans;
    ScanResult(msg, spans, cands);
  }

  /** What the finished scan's spans and texts satisfy. */
  lemma ScanResult(msg: string, spans: seq<Span>, cands: seq<string>)
    requires spans == ScanClamped(msg, 0, 0, -1)
    requires TextsAgree(msg, spans, cands)
    ensures forall k :: 0 <= k < |spans| ==> IsCandidate(msg, spans[k])
    ensures forall sp :: IsCandidate(msg, sp) ==> sp in spans
    ensures forall k, l :: 0 <= k < l < |spans| ==> spans[k].end <= spans[l].start
    ensures forall k :: 0 <= k < |cands| ==> IsBalancedObject(cands[k])
    ensures (forall i :: 0 <= i < |msg| ==> msg[i] != '{') ==> cands == []
    ensures cands == SpanTexts(msg, spans)
  {
    ScanClampedSpans(msg);
    if |spans| > 0 {
      assert IsCandidate(msg, spans[0]);
    }
    SpanTextsOf(msg, spans, cands);
    forall k | 0 <= k < |spans|
      ensures IsBalancedObject(cands[k])
    {
      CandidateIsBalanced(msg, spans[k]);
    }
  }

  /** The corrected scan as a function: a `}` with nothing open is ignored, and everything
      else is as written. */
  function ScanClamped(msg: string, i: nat, count: nat, start: int): (r: seq<Span>)
    requires i <= |msg| && start >= -1
    ensures |r| <= |msg| - i
    decreases |msg| - i
  {
    if i == |msg| then []
    else if msg[i] == '{' then ScanClamped(msg, i + 1, count + 1, if count == 0 then i else start)
    else if msg[i] == '}' then
      if count == 0 then ScanClamped(msg, i + 1, 0, start)
      else if count - 1 == 0 && start != -1 then [Span(start, i + 1)] + ScanClamped(msg, i + 1, 0, -1)
      else ScanClamped(msg, i + 1, count - 1, start)
    else ScanClamped(msg, i + 1, count, start)
  }

  /** From any state the scan invariant describes, the spans found so far followed by the
      rest of the corrected scan are exactly the candidates, in order. */
  lemma {:induction false} ScanClampedFrom(msg: string, i: nat, count: nat, start: int, spans: seq<Span>)
    requires ScanInv(msg, i, count, start, spans)
    ensures AllCandidates(msg, spans + ScanClamped(msg, i, count, start))
    decreases |msg| - i
  {
    if i == |msg| {
      assert spans + ScanClamped(msg, i, count, start) == spans;
      ScanFinish(msg, count, start, spans);
    } else if msg[i] == '}' && count == 1 {
      ScanClose(msg, i, start, spans);
      ScanClampedFrom(msg, i + 1, 0, -1, spans + [Span(start, i + 1)]);
      AllCandidatesClose(msg, i, start, spans);
    } else {
      ScanOther(msg, i, count, start, spans);
      ScanClampedFrom(msg, i + 1, StepDepth(count, msg[i]),
                      if msg[i] == '{' && count == 0 then i else start, spans);
      AllCandidatesOther(msg, i, count, start, spans);
    }
  }

  /** A closing step of the corrected scan moves one span from the rest of the scan to the
      spans found, so the whole list is unchanged. */
  lemma AllCandidatesClose(msg: string, i: nat, start: int, spans: seq<Span>)
    requires i < |msg| && msg[i] == '}' && start >= 0
    requires AllCandidates(msg, (spans + [Span(start, i + 1)]) + ScanClamped(msg, i + 1, 0, -1))
    ensures AllCandidates(msg, spans + ScanClamped(msg, i, 1, start))
  {
    ClampedStep(msg, i, 1, start);
    assert spans + ScanClamped(msg, i, 1, start)
        == (spans + [Span(start, i + 1)]) + ScanClamped(msg, i + 1, 0, -1);
  }

  /** Any other step of the corrected scan finds no span. */
  lemma AllCandidatesOther(msg: string, i: nat, count: nat, start: int, spans: seq<Span>)
    requires i < |msg| && start >= -1 && (count == 1 ==> start != -1)
    requires !(msg[i] == '}' && count == 1)
    requires AllCandidates(msg, spans + ScanClamped(msg, i + 1, StepDepth(count, msg[i]),
                                                   if msg[i] == '{' && count == 0 then i else start))
    ensures AllCandidates(msg, spans + ScanClamped(msg, i, count, start))
  {
    ClampedStep(msg, i, count, start);
  }

  /** `spans` lists every candidate of `msg` and nothing else, in increasing,
      non-overlapping order. */
  ghost predicate AllCandidates(msg: string, spans: seq<Span>) {
    && (forall k :: 0 <= k < |spans| ==> IsCandidate(msg, spans[k]))
    && (forall sp :: IsCandidate(msg, sp) ==> sp in spans)
    && (forall k, l :: 0 <= k < l < |spans| ==> spans[k].end <= spans[l].start)
  }

  /** The corrected scan of a whole message finds exactly its candidates, in increasing,
      non-overlapping order. */
  lemma ScanClampedSpans(msg: string)
    ensures forall k :: 0 <= k < |ScanClamped(msg, 0, 0, -1)| ==> IsCandidate(msg, ScanClamped(msg, 0, 0, -1)[k])
    ensures forall sp :: IsCandidate(msg, sp) ==> sp in ScanClamped(msg, 0, 0, -1)
    ensures forall k, l :: 0 <= k < l < |ScanClamped(msg, 0, 0, -1)| ==>
      ScanClamped(msg, 0, 0, -1)[k].end <= ScanClamped(msg, 0, 0, -1)[l].start
  {
    assert msg[..0] == [];
    ScanClampedFrom(msg, 0, 0, -1, []);
    assert [] + ScanClamped(msg, 0, 0, -1) == ScanClamped(msg, 0, 0, -1);
  }

  /** Extending a substring by one character adds that character's balance. */
  lemma NetStep(msg: string, a: nat, j: nat)
    requires a <= j < |msg|
    ensures Net(msg[a..j + 1]) == Net(msg[a..j]) + Delta(msg[j])
  {
    assert msg[a..j + 1][..j - a] == msg[a..j];
  }

  /** The balance of a non-empty string, read from the front. */
  lemma {:induction false} NetFront(t: string)
    requires |t| > 0
    ensures Net(t) == Delta(t[0]) + Net(t[1..])
    decreases |t|
  {
    if |t| > 1 {
      var init := t[..|t| - 1];
      NetFront(init);
      assert init[1..] == t[1..][..|t| - 2];
      assert t[1..][|t| - 2] == t[|t| - 1];
    } else {
      assert t[..0] == [] && t[1..] == [];
    }
  }

  /** What the scan as written knows while an object is open: it began with `{` at `start`,
      the count is the balance since then, and that balance has stayed positive. */
  predicate OpenInv(msg: string, i: nat, count: int, start: int)
    requires i <= |msg|
  {
    start >= -1
    && (start != -1 ==>
          && start < i && msg[start] == '{' && count == Net(msg[start..i])
          && forall j :: start < j <= i ==> Net(msg[start..j]) >= 1)
  }

  /** A character that closes nothing keeps the scan's knowledge; a `{` at count zero opens
      an object. */
  lemma OpenStep(msg: string, i: nat, count: int, start: int)
    requires i < |msg| && OpenInv(msg, i, count, start)
    requires !(msg[i] == '}' && count - 1 == 0 && start != -1)
    ensures OpenInv(msg, i + 1, count + Delta(msg[i]),
                    if msg[i] == '{' && count == 0 then i else start)
  {
    if start != -1 {
      NetStep(msg, start, i);
    }
    if msg[i] == '{' && count == 0 {
      assert start == -1;
      NetStep(msg, i, i);
      assert msg[i..i] == [];
    }
  }

  /** The `}` that brings the count from one to zero closes a balanced object. */
  lemma OpenClose(msg: string, i: nat, count: int, start: int)
    requires i < |msg| && OpenInv(msg, i, count, start)
    requires msg[i] == '}' && count - 1 == 0 && start != -1
    ensures IsBalancedObject(msg[start..i + 1])
  {
    var c := msg[start..i + 1];
    NetStep(msg, start, i);
    forall k | 0 < k < |c|
      ensures Net(c[..k]) > 0
    {
      assert c[..k] == msg[start..start + k];
    }
  }

  /** The scan exactly as written: the count is never clamped, so after a `}` that closes
      nothing it sits below zero and the next object does not open at zero. The spans it
      yields still lie in order, do not overlap, and each covers a balanced object; a
      message with no `{` yields none. */
  function ScanAsWritten(msg: string, i: nat, count: int, start: int): (r: seq<Span>)
    requires i <= |msg| && OpenInv(msg, i, count, start)
    ensures SpansFrom(msg, if start == -1 then i else start, i, r)
    ensures start == -1 && (forall j :: i <= j < |msg| ==> msg[j] != '{') ==> r == []
    decreases |msg| - i
  {
    if i == |msg| then []
    else if msg[i] == '}' && count - 1 == 0 && start != -1 then
      OpenClose(msg, i, count, start);
      var rest := ScanAsWritten(msg, i + 1, 0, -1);
      SpansCons(msg, start, i, rest);
      [Span(start, i + 1)] + rest
    else
      OpenStep(msg, i, count, start);
      var next := if msg[i] == '{' && count == 0 then i else start;
      var rest := ScanAsWritten(msg, i + 1, count + Delta(msg[i]), next);
      SpansWiden(msg, if next == -1 then i + 1 else next, if start == -1 then i else start, i, rest);
      rest
  }

  /** Spans lying in order, without overlap, each at or after `lo`, each ending after `i`
      and covering a balanced object. */
  predicate SpansFrom(msg: string, lo: int, i: nat, r: seq<Span>) {
    && (forall k :: 0 <= k < |r| ==> lo <= r[k].start < r[k].end <= |msg| && i < r[k].end)
    && (forall k :: 0 <= k < |r| ==> IsBalancedObject(msg[r[k].start..r[k].end]))
    && (forall k, l :: 0 <= k < l < |r| ==> r[k].end <= r[l].start)
  }

  lemma SpansCons(msg: string, start: nat, i: nat, rest: seq<Span>)
    requires start <= i < |msg| && IsBalancedObject(msg[start..i + 1])
    requires SpansFrom(msg, i + 1, i + 1, rest)
    ensures SpansFrom(msg, start, i, [Span(start, i + 1)] + rest)
  {
  }

  lemma SpansWiden(msg: string, lo': int, lo: int, i: nat, r: seq<Span>)
    requires lo <= lo' && SpansFrom(msg, lo', i + 1, r)
    ensures SpansFrom(msg, lo, i, r)
  {
  }

  /** A balance that stays non-negative from `i` on stays so from `i + 1` on. */
  lemma BalanceAhead(msg: string, i: nat, next: nat, count: int)
    requires i < |msg| && next == i + 1
    requires forall j :: i <= j <= |msg| ==> count + Net(msg[i..j]) >= 0
    ensures count + Delta(msg[i]) >= 0
    ensures forall j :: next <= j <= |msg| ==> count + Delta(msg[i]) + Net(msg[next..j]) >= 0
  {
    forall j | next <= j <= |msg|
      ensures count + Delta(msg[i]) + Net(msg[next..j]) >= 0
    {
      NetFront(msg[i..j]);
      assert msg[i..j][1..] == msg[next..j];
    }
    assert msg[next..next] == [];
  }

  /** Where no `}` ever closes more than was opened, the scan as written and the corrected
      scan find the same spans. */
  lemma {:induction false} ScanAgreesWithoutStrayBrace(msg: string, i: nat, count: nat, start: int)
    requires i <= |msg| && OpenInv(msg, i, count, start)
    requires forall j :: i <= j <= |msg| ==> count + Net(msg[i..j]) >= 0
    ensures ScanAsWritten(msg, i, count, start) == ScanClamped(msg, i, count, start)
    decreases |msg| - i
  {
    if i < |msg| {
      BalanceAhead(msg, i, i + 1, count);
      if msg[i] == '}' && count - 1 == 0 && start != -1 {
        ScanAgreesWithoutStrayBrace(msg, i + 1, 0, -1);
      } else {
        var next := if msg[i] == '{' && count == 0 then i else start;
        AsWrittenStep(msg, i, count, start);
        assert ScanClamped(msg, i, count, start) == ScanClamped(msg, i + 1, count + Delta(msg[i]), next);
        ScanAgreesWithoutStrayBrace(msg, i + 1, count + Delta(msg[i]), next);
      }
    }
  }

  /** A step of the scan as written that closes nothing finds no span. */
  lemma AsWrittenStep(msg: string, i: nat, count: int, start: int)
    requires i < |msg| && OpenInv(msg, i, count, start)
    requires !(msg[i] == '}' && count - 1 == 0 && start != -1)
    ensures OpenInv(msg, i + 1, count + Delta(msg[i]), if msg[i] == '{' && count == 0 then i else start)
    ensures ScanAsWritten(msg, i, count, start)
         == ScanAsWritten(msg, i + 1, count + Delta(msg[i]), if msg[i] == '{' && count == 0 then i else start)
  {
    OpenStep(msg, i, count, start);
  }

  /** The whole message: with no prefix holding more `}` than `{`, the page's scan finds
      exactly the corrected scan's spans. */
  lemma ScanAsWrittenAgrees(msg: string)
    requires forall j :: 0 <= j <= |msg| ==> Net(msg[..j]) >= 0
    ensures ScanAsWritten(msg, 0, 0, -1) == ScanClamped(msg, 0, 0, -1)
  {
    forall j | 0 <= j <= |msg|
      ensures 0 + Net(msg[0..j]) >= 0
    {
      assert msg[0..j] == msg[..j];
    }
    ScanAgreesWithoutStrayBrace(msg, 0, 0, -1);
  }

  /** A stray `}` before an object hides the object from the scan as written, though it is a
      balanced top-level object that the corrected scan finds. */
  lemma StrayClosingBraceHidesObject()
    ensures ScanAsWritten("}{}", 0, 0, -1) == []
    ensures ScanClamped("}{}", 0, 0, -1) == [Span(1, 3)]
    ensures IsCandidate("}{}", Span(1, 3))
  {
    var m := "}{}";
    assert m[..1] == "}" && m[..2] == "}{" && m[..3] == m;
    assert m[..1][..0] == [] && m[..2][..1] == m[..1] && m[..3][..2] == m[..2];
    assert Depth(m[..1]) == 0;
    assert Depth(m[..2]) == 1;
    assert Depth(m[..3]) == 0;
  }

  /** The other way round: after a stray `}` the scan as written takes the inner `{}` of an
      unclosed object as an object of its own, which is not a top-level candidate. */
  lemma StrayClosingBraceExposesInner()
    ensures ScanAsWritten("}{{}", 0, 0, -1) == [Span(2, 4)]
    ensures ScanClamped("}{{}", 0, 0, -1) == []
    ensures !IsCandidate("}{{}", Span(2, 4))
  {
    var m := "}{{}";
    assert m[..1] == "}" && m[..2] == "}{";
    assert m[..1][..0] == [] && m[..2][..1] == m[..1];
    assert Depth(m[..1]) == 0;
    assert Depth(m[..2]) == 1;
  }
}

=== FILE: consultation.dfy ===
/** The consultation record the voice-agent module keeps for the page: the symptoms gathered,
    the appointment being arranged and the assessment status, with the updates the agent's
    tools make to it. */
module ConsultationStore {
  import opened Common
  import opened Text
  import opened JsValue
  import opened SlotFormat

  /** The record. The appointment is a plain object, so a map from property names. */
  datatype Consultation = Consultation(symptoms: seq<Value>, appointment: map<string, Value>,
                                       assessmentStatus: Value)

  /** The record a session starts from and returns to: no symptoms, an empty appointment
      and the status "Not started". The module starts with it, and starting and cleaning
      up a session both reset to it. */
  const EmptyConsultation: Consultation := Consultation([], map[], Str("Not started"))

  /** Starting and cleaning up a session: whatever was gathered is dropped. */
  function Reset(state: Consultation): (r: Consultation)
    ensures r.symptoms == [] && r.appointment == map[] && r.assessmentStatus == Str("Not started")
  {
    EmptyConsultation
  }

  /** Resetting twice is resetting once, and the result does not depend on the record. */
  lemma ResetIdempotent(a: Consultation, b: Consultation)
    ensures Reset(Reset(a)) == Reset(a) && Reset(a) == Reset(b)
  {
  }

  /** A list every element of which satisfies `p` filters to itself. */
  lemma {:induction false} KeepAll<T>(xs: seq<T>, p: T -> bool)
    requires forall i :: 0 <= i < |xs| ==> p(xs[i])
    ensures Keep(xs, p) == xs
  {
    if |xs| > 0 {
      KeepAll(xs[1..], p);
      assert xs == [xs[0]] + xs[1..];
    }
  }

  /** After a reset nothing is stored to be a duplicate of, so the first update stores the
      reported symptoms as they came. */
  lemma FirstUpdateAfterReset(state: Consultation, params: Value)
    requires Truthy(params) && Truthy(Prop(params, "consultationData"))
    requires var symptoms := Prop(Prop(params, "consultationData"), "symptoms");
             Truthy(symptoms) && !HasNullish(AsList(symptoms))
    ensures UpdateConsultation(Reset(state), params).Some?
    ensures UpdateConsultation(Reset(state), params).value.symptoms
         == AsList(Prop(Prop(params, "consultationData"), "symptoms"))
  {
    var batch := AsList(Prop(Prop(params, "consultationData"), "symptoms"));
    assert !HasNullish([]);
    KeepAll(batch, x => IsNewSymptom([], x));
    assert [] + batch == batch;
  }

  /** The reply of the consultation-update tool. */
  const UpdateReply: string := "Consultation data updated successfully."

  /** An array of strings, as the record stores the slot lines. */
  function StrArr(xs: seq<string>): (v: Value)
    ensures v.Arr? && |v.items| == |xs|
    ensures forall i :: 0 <= i < |xs| ==> v.items[i] == Str(xs[i])
  {
    Arr(seq(|xs|, i requires 0 <= i < |xs| => Str(xs[i])))
  }

  /** `s.symptom`, the key symptoms are deduplicated by. */
  function SymptomKey(item: Value): Value {
    Prop(item, "symptom")
  }

  function SymptomKeys(items: seq<Value>): (r: seq<Value>)
    ensures |r| == |items|
    ensures forall i :: 0 <= i < |items| ==> r[i] == SymptomKey(items[i])
  {
    seq(|items|, i requires 0 <= i < |items| => SymptomKey(items[i]))
  }

  /** `new Set(keys).has(k)`. Membership is SameValueZero, under which an object or array is
      found only if that very object is in the set; the keys of a tool call are freshly
      parsed objects, so an object-like key is never found. */
  predicate SetHas(keys: seq<Value>, k: Value) {
    !IsObjectLike(k) && k in keys
  }

  /** `Array.isArray(v) ? v : [v]`. */
  function AsList(v: Value): seq<Value> {
    if v.Arr? then v.items else [v]
  }

  predicate HasNullish(items: seq<Value>) {
    exists i :: 0 <= i < |items| && IsNullish(items[i])
  }

  /** Whether `item` survives the duplicate filter against the stored symptoms. */
  predicate IsNewSymptom(existing: seq<Value>, item: Value) {
    !SetHas(SymptomKeys(existing), SymptomKey(item))
  }

  /** The incoming items that survive the duplicate filter, in order. */
  function NewSymptoms(existing: seq<Value>, batch: seq<Value>): (r: seq<Value>)
    ensures forall x :: multiset(r)[x] == if IsNewSymptom(existing, x) then multiset(batch)[x] else 0
  {
    var p := x => IsNewSymptom(existing, x);
    KeepCounts(batch, p);
    Keep(batch, p)
  }

  /** The symptom step of the consultation-update tool. Reading `.symptom` of `null` or
      `undefined`, stored or incoming, throws (`None`). Otherwise the stored list is kept and
      the incoming items whose key no stored symptom has are appended, in order; incoming
      items are not compared with each other. */
  function MergeSymptoms(existing: seq<Value>, payload: Value): (r: Option<seq<Value>>)
    ensures r.None? <==> HasNullish(existing) || HasNullish(AsList(payload))
    ensures r.Some? ==> existing <= r.value
    ensures r.Some? ==> forall x :: x in r.value[|existing|..] <==> x in AsList(payload) && IsNewSymptom(existing, x)
    ensures r.Some? ==> r.value[|existing|..] == NewSymptoms(existing, AsList(payload))
    ensures r.Some? ==> forall x :: multiset(r.value[|existing|..])[x]
                                    == if IsNewSymptom(existing, x) then multiset(AsList(payload))[x] else 0
  {
    var batch := AsList(payload);
    if HasNullish(existing) || HasNullish(batch) then None
    else
      var added := NewSymptoms(existing, batch);
      assert (existing + added)[|existing|..] == added;
      Some(existing + added)
  }

  /** An incoming symptom whose name is already stored is dropped (the stored entry wins). */
  lemma MergeSymptomsDropsKnownName(existing: seq<Value>, name: string, detail: Value)
    requires !HasNullish(existing)
    requires exists i :: 0 <= i < |existing| && SymptomKey(existing[i]) == Str(name)
    ensures MergeSymptoms(existing, Obj([("symptom", Str(name)), ("severity", detail)])) == Some(existing)
  {
    var item := Obj([("symptom", Str(name)), ("severity", detail)]);
    var i :| 0 <= i < |existing| && SymptomKey(existing[i]) == Str(name);
    assert SymptomKeys(existing)[i] == Str(name);
    assert !IsNewSymptom(existing, item);
    assert AsList(item)[1..] == [];
    assert existing + [] == existing;
  }

  /** Two incoming symptoms with the same new name are both appended. */
  lemma MergeSymptomsKeepsRepeatsWithinOneCall()
    ensures MergeSymptoms([], Arr([Obj([("symptom", Str("knee pain"))]), Obj([("symptom", Str("knee pain"))])]))
         == Some([Obj([("symptom", Str("knee pain"))]), Obj([("symptom", Str("knee pain"))])])
  {
    var a := Obj([("symptom", Str("knee pain"))]);
    assert !HasNullish([a, a]) by {
      forall i | 0 <= i < 2
        ensures !IsNullish([a, a][i])
      {
      }
    }
    assert IsNewSymptom([], a);
    assert [a, a][1..] == [a];
    assert [a][1..] == [];
    assert NewSymptoms([], [a, a]) == [a, a];
  }

  /** A list with no element satisfying `p` filters to nothing. */
  lemma KeepNone<T>(xs: seq<T>, p: T -> bool)
    requires forall x :: x in xs ==> !p(x)
    ensures Keep(xs, p) == []
  {
    if Keep(xs, p) != [] {
      assert Keep(xs, p)[0] in Keep(xs, p);
    }
  }

  /** After a merge every incoming name is stored, whether it was appended or already there. */
  lemma MergedKnowsBatch(existing: seq<Value>, batch: seq<Value>)
    requires forall x :: x in batch ==> !IsObjectLike(SymptomKey(x))
    ensures forall x :: x in batch ==> !IsNewSymptom(existing + NewSymptoms(existing, batch), x)
  {
    var added := NewSymptoms(existing, batch);
    var once := existing + added;
    forall x | x in batch
      ensures !IsNewSymptom(once, x)
    {
      if IsNewSymptom(existing, x) {
        assert x in added;
        var j :| 0 <= j < |added| && added[j] == x;
        assert once[|existing| + j] == x;
        assert SymptomKeys(once)[|existing| + j] == SymptomKey(x);
      } else {
        var j :| 0 <= j < |existing| && SymptomKeys(existing)[j] == SymptomKey(x);
        assert once[j] == existing[j];
        assert SymptomKeys(once)[j] == SymptomKey(x);
      }
    }
  }

  /** Repeating a tool call adds nothing the second time, as long as no incoming key is an
      object: every incoming key is stored after the first call. */
  lemma MergeSymptomsIdempotent(existing: seq<Value>, payload: Value)
    requires MergeSymptoms(existing, payload).Some?
    requires forall x :: x in AsList(payload) ==> !IsObjectLike(SymptomKey(x))
    ensures MergeSymptoms(MergeSymptoms(existing, payload).value, payload) == MergeSymptoms(existing, payload)
  {
    var once := MergeSymptoms(existing, payload).value;
    var batch := AsList(payload);
    assert once == existing + NewSymptoms(existing, batch) by {
      assert once == once[..|existing|] + once[|existing|..];
    }
    MergedKnowsBatch(existing, batch);
    KeepNone(batch, x => IsNewSymptom(once, x));
    assert NewSymptoms(once, batch) == [];
    assert !HasNullish(once) by {
      forall i | 0 <= i < |once|
        ensures !IsNullish(once[i])
      {
        if i >= |existing| {
          assert once[i] in once[|existing|..];
        }
      }
    }
    assert once + [] == once;
  }

  /** The stored symptoms never hold `null` or `undefined`: an update that would add one
      throws instead. */
  lemma MergeSymptomsKeepsItemsDefined(existing: seq<Value>, payload: Value)
    requires MergeSymptoms(existing, payload).Some?
    ensures !HasNullish(MergeSymptoms(existing, payload).value)
  {
    var r := MergeSymptoms(existing, payload).value;
    forall i | 0 <= i < |r|
      ensures !IsNullish(r[i])
    {
      if i >= |existing| {
        assert r[i] in r[|existing|..];
      }
    }
  }

  /** The consultation-update tool. `None` is a call that throws (the tool rethrows, and
      nothing has been stored); otherwise the new record, the reply being `UpdateReply`.
      Without `params.consultationData` nothing changes. Truthy `symptoms` are merged, a
      truthy `assessmentStatus` replaces the stored one, and a truthy `appointment` is
      spread over the stored appointment. */
  function UpdateConsultation(state: Consultation, params: Value): (r: Option<Consultation>)
    ensures !Truthy(params) || !Truthy(Prop(params, "consultationData")) ==> r == Some(state)
    ensures r.Some? ==> state.symptoms <= r.value.symptoms
    ensures r.Some? ==> state.appointment.Keys <= r.value.appointment.Keys
    ensures r.Some? && Truthy(state.assessmentStatus) ==> Truthy(r.value.assessmentStatus)
    ensures r.Some? && Truthy(params) && Truthy(Prop(params, "consultationData")) ==>
      var data := Prop(params, "consultationData");
      var appointment := Prop(data, "appointment");
      && r.value.assessmentStatus == Or(Prop(data, "assessmentStatus"), state.assessmentStatus)
      && forall k :: MapGet(r.value.appointment, k)
                     == if Truthy(appointment) && k in Spread(appointment)
                        then Get(Entries(appointment), k)
                        else MapGet(state.appointment, k)
  {
    if !Truthy(params) || !Truthy(Prop(params, "consultationData")) then Some(state)
    else
      var data := Prop(params, "consultationData");
      var symptoms := Prop(data, "symptoms");
      var merged := if Truthy(symptoms) then MergeSymptoms(state.symptoms, symptoms) else Some(state.symptoms);
      if merged.None? then None
      else
        var status := Prop(data, "assessmentStatus");
        var appointment := Prop(data, "appointment");
        Some(Consultation(
          merged.value,
          if Truthy(appointment) then state.appointment + Spread(appointment) else state.appointment,
          if Truthy(status) then status else state.assessmentStatus))
  }

  /** The three parts of an update act independently: each field of the new record is
      decided by its own part of the payload alone. */
  lemma UpdateConsultationFields(state: Consultation, params: Value, k: string)
    requires Truthy(params) && Truthy(Prop(params, "consultationData"))
    requires UpdateConsultation(state, params).Some?
    ensures var data := Prop(params, "consultationData");
            var next := UpdateConsultation(state, params).value;
            && next.symptoms == (if Truthy(Prop(data, "symptoms"))
                                 then MergeSymptoms(state.symptoms, Prop(data, "symptoms")).value
                                 else state.symptoms)
            && next.assessmentStatus == Or(Prop(data, "assessmentStatus"), state.assessmentStatus)
            && MapGet(next.appointment, k)
               == (if Truthy(Prop(data, "appointment")) && k in Spread(Prop(data, "appointment"))
                   then Get(Entries(Prop(data, "appointment")), k)
                   else MapGet(state.appointment, k))
  {
  }

  /** The update throws exactly when truthy symptoms carry a `null`/`undefined` item, or the
      stored list does. */
  lemma UpdateConsultationThrows(state: Consultation, params: Value)
    requires Truthy(params) && Truthy(Prop(params, "consultationData"))
    ensures var symptoms := Prop(Prop(params, "consultationData"), "symptoms");
            UpdateConsultation(state, params).None?
            <==> Truthy(symptoms) && (HasNullish(state.symptoms) || HasNullish(AsList(symptoms)))
  {
  }

  /** The criteria fields a slot fetch copies into the appointment. */
  const CriteriaFields: set<string> := {"date", "consultationType", "campus"}

  /** The slot lines, as stored for the page. */
  function SlotLinesValue(hourlySlots: Value): Value {
    StrArr(FormatAvailableSlots(hourlySlots))
  }

  /** What a slot fetch leaves in the store: the slot lines of `hourly_slots` as
      `availableSlots`, and with a truthy `search_criteria` its date, consultation type and
      campus. Without truthy slot data nothing changes. */
  function SlotDataUpdate(state: Consultation, slotData: Value): (r: Consultation)
    ensures r.symptoms == state.symptoms && r.assessmentStatus == state.assessmentStatus
    ensures !Truthy(slotData) || !Truthy(Prop(slotData, "hourly_slots")) ==> r == state
    ensures Truthy(slotData) && Truthy(Prop(slotData, "hourly_slots")) ==>
      var criteria := Prop(slotData, "search_criteria");
      var written := {"availableSlots"} + if Truthy(criteria) then CriteriaFields else {};
      && r.appointment.Keys == state.appointment.Keys + written
      && r.appointment["availableSlots"] == StrArr(FormatAvailableSlots(Prop(slotData, "hourly_slots")))
      && (Truthy(criteria) ==> && r.appointment["date"] == Prop(criteria, "date")
                               && r.appointment["consultationType"] == Prop(criteria, "consultation_type")
                               && r.appointment["campus"] == Prop(criteria, "campus"))
      && forall k :: k in state.appointment && k !in written ==> r.appointment[k] == state.appointment[k]
  {
    if !Truthy(slotData) || !Truthy(Prop(slotData, "hourly_slots")) then state
    else
      var criteria := Prop(slotData, "search_criteria");
      Consultation(
        state.symptoms,
        state.appointment["availableSlots" := SlotLinesValue(Prop(slotData, "hourly_slots"))]
          + (if Truthy(criteria)
             then map["date" := Prop(criteria, "date"),
                      "consultationType" := Prop(criteria, "consultation_type"),
                      "campus" := Prop(criteria, "campus")]
             else map[]),
        state.assessmentStatus)
  }

  /** The message a slot fetch puts in front of the model: the header, then either the
      no-slots line or the bulleted slot lines and the closing question. */
  function SlotMessage(slotData: Value, header: string): (r: Option<string>)
    ensures r.None? <==> !Truthy(slotData) || !Truthy(Prop(slotData, "hourly_slots"))
                         || !Truthy(Prop(slotData, "search_criteria"))
    ensures r.Some? ==> header + "\n" <= r.value
    ensures r.Some? && FormatAvailableSlots(Prop(slotData, "hourly_slots")) == [] ==>
      r.value == header + "\n" + NoSlotsLine
    ensures r.Some? && FormatAvailableSlots(Prop(slotData, "hourly_slots")) != [] ==>
      |r.value| >= |SlotQuestion| + 2 && r.value[|r.value| - |SlotQuestion| - 2..] == "\n\n" + SlotQuestion
  {
    if !Truthy(slotData) || !Truthy(Prop(slotData, "hourly_slots")) || !Truthy(Prop(slotData, "search_criteria"))
    then None
    else
      var lines := FormatAvailableSlots(Prop(slotData, "hourly_slots"));
      if lines == [] then Some(header + "\n" + NoSlotsLine)
      else
        Framed(header + "\n", Join(Bullets(lines), "\n"), "\n\n", SlotQuestion);
        Some(header + "\n" + Join(Bullets(lines), "\n") + "\n\n" + SlotQuestion)
  }

  /** `processSlotData(slotData)`: its own copy of the slot loop; the lines are stored as
      `availableSlots`, and a truthy `search_criteria` also stores `date`,
      `consultationType` (from `consultation_type`) and `campus`. */
  method ProcessSlotData(state: Consultation, slotData: Value) returns (next: Consultation)
    ensures !Truthy(slotData) || !Truthy(Prop(slotData, "hourly_slots")) ==> next == state
    ensures Truthy(slotData) && Truthy(Prop(slotData, "hourly_slots")) ==>
      var criteria := Prop(slotData, "search_criteria");
      && next.symptoms == state.symptoms
      && next.assessmentStatus == state.assessmentStatus
      && next.appointment
         == state.appointment["availableSlots" := SlotLinesValue(Prop(slotData, "hourly_slots"))]
            + (if Truthy(criteria)
               then map["date" := Prop(criteria, "date"),
                        "consultationType" := Prop(criteria, "consultation_type"),
                        "campus" := Prop(criteria, "campus")]
               else map[])
    ensures next == SlotDataUpdate(state, slotData)
  {
    if !Truthy(slotData) || !Truthy(Prop(slotData, "hourly_slots")) {
      return state;
    }
    var hourly := Prop(slotData, "hourly_slots");
    var entries := Entries(hourly);
    var lines: seq<string> := [];
    var i := 0;
    while i < |entries|
      invariant 0 <= i <= |entries|
      invariant lines == FormatEntries(entries[..i])
    {
      var (key, availability) := entries[i];
      assert entries[..i + 1][..i] == entries[..i];
      if availability == Str("available") {
        match MatchSlotKey(key)
        case Some((start, end)) =>
          lines := lines + [FormatSlot(start, end)];
        case None =>
      }
      i := i + 1;
    }
    assert entries[..|entries|] == entries;
    var appointment := state.appointment["availableSlots" := StrArr(lines)];
    var criteria := Prop(slotData, "search_criteria");
    if Truthy(criteria) {
      appointment := appointment + map["date" := Prop(criteria, "date"),
                                       "consultationType" := Prop(criteria, "consultation_type"),
                                       "campus" := Prop(criteria, "campus")];
    } else {
      appointment := appointment + map[];
    }
    next := Consultation(state.symptoms, appointment, state.assessmentStatus);
  }

  /** The bullet lines of the slot message. */
  function Bullets(lines: seq<string>): (r: seq<string>)
    ensures |r| == |lines|
    ensures forall i :: 0 <= i < |lines| ==> r[i] == "- " + lines[i]
  {
    seq(|lines|, i requires 0 <= i < |lines| => "- " + lines[i])
  }

  const NoSlotsLine: string := "No slots available for this day."
  const SlotQuestion: string := "Which time slot would you prefer?"

  lemma BulletsAppend(a: seq<string>, b: seq<string>)
    ensures Bullets(a + b) == Bullets(a) + Bullets(b)
  {
    var l, r := Bullets(a + b), Bullets(a) + Bullets(b);
    forall i | 0 <= i < |l|
      ensures l[i] == r[i]
    {
      if i < |a| {
        assert (a + b)[i] == a[i];
      } else {
        assert (a + b)[i] == b[i - |a|];
      }
    }
  }

  /** One more entry adds its bullet line when it qualifies. */
  lemma BulletsStep(entries: seq<(string, Value)>, i: nat)
    requires i < |entries|
    ensures Bullets(FormatEntries(entries[..i + 1]))
         == Bullets(FormatEntries(entries[..i]))
            + (if Qualifies(entries[i]) then ["- " + SlotLine(entries[i])] else [])
  {
    FormatEntriesPrefixStep(entries, i);
    BulletsSnoc(FormatEntries(entries[..i]), Qualifies(entries[i]), SlotLine(entries[i]));
  }

  /** Bulleting a list extended by at most one line. */
  lemma BulletsSnoc(a: seq<string>, b: bool, x: string)
    ensures Bullets(a + if b then [x] else []) == Bullets(a) + if b then ["- " + x] else []
  {
    BulletsAppend(a, if b then [x] else []);
  }

  /** `formatAvailableSlotsMessage(slotData)`: the text put in front of the model after a
      slot fetch, `None` standing for `null`. `header` is the first line, which names the
      weekday, the date in US English and the campus. */
  method FormatAvailableSlotsMessage(slotData: Value, header: string) returns (msg: Option<string>)
    ensures msg.None? <==> !Truthy(slotData) || !Truthy(Prop(slotData, "hourly_slots"))
                           || !Truthy(Prop(slotData, "search_criteria"))
    ensures msg.Some? && FormatAvailableSlots(Prop(slotData, "hourly_slots")) == [] ==>
      msg.value == header + "\n" + NoSlotsLine
    ensures msg.Some? && FormatAvailableSlots(Prop(slotData, "hourly_slots")) != [] ==>
      msg.value == header + "\n" + Join(Bullets(FormatAvailableSlots(Prop(slotData, "hourly_slots"))), "\n")
                   + "\n\n" + SlotQuestion
    ensures msg == SlotMessage(slotData, header)
  {
    if !Truthy(slotData) || !Truthy(Prop(slotData, "hourly_slots")) || !Truthy(Prop(slotData, "search_criteria")) {
      return None;
    }
    var entries := Entries(Prop(slotData, "hourly_slots"));
    var lines: seq<string> := [];
    var i := 0;
    while i < |entries|
      invariant 0 <= i <= |entries|
      invariant lines == Bullets(FormatEntries(entries[..i]))
    {
      BulletsStep(entries, i);
      var (key, availability) := entries[i];
      if availability == Str("available") {
        match MatchSlotKey(key)
        case Some((start, end)) =>
          lines := lines + ["- " + FormatSlot(start, end)];
        case None =>
      }
      i := i + 1;
    }
    assert entries[..|entries|] == entries;
    var slots := FormatAvailableSlots(Prop(slotData, "hourly_slots"));
    assert slots == FormatEntries(entries);
    assert lines == Bullets(slots);
    if |lines| == 0 {
      assert slots == [];
      return Some(header + "\n" + NoSlotsLine);
    }
    return Some(header + "\n" + Join(lines, "\n") + "\n\n" + SlotQuestion);
  }

  /** `c` is the second space-separated field of `s`: it holds no space, and `s` begins with
      a first field, a space and `c`, which ends the string or is followed by a space. */
  ghost predicate IsSecondField(s: string, c: string) {
    && !Contains(c, " ")
    && exists a :: !Contains(a, " ") && a + " " + c <= s
                   && (|s| == |a| + 1 + |c| || s[|a| + 1 + |c|] == ' ')
  }

  /** `startDateTime.split(' ')[1]`: the second space-separated field, `undefined` if none. */
  function BookingTime(startDateTime: string): (r: Value)
    ensures r.Str? <==> Contains(startDateTime, " ")
    ensures !r.Str? ==> r == Undefined
  {
    var parts := Split(startDateTime, " ");
    SecondFieldShape(startDateTime);
    if |parts| > 1 then Str(parts[1]) else Undefined
  }

  /** The time read from a start time is its second space-separated field. */
  lemma BookingTimeIsSecondField(startDateTime: string)
    ensures BookingTime(startDateTime).Str? ==> IsSecondField(startDateTime, BookingTime(startDateTime).s)
  {
    SecondFieldShape(startDateTime);
  }

  /** A string holding a space splits into at least two fields; the second field holds no
      space and sits between the first space and the next one, or runs to the end. */
  lemma SecondFieldShape(s: string)
    ensures Contains(s, " ") <==> |Split(s, " ")| > 1
    ensures Contains(s, " ") ==> IsSecondField(s, Split(s, " ")[1])
  {
    if Contains(s, " ") {
      var a := Before(s, " ");
      var rest := After(s, " ").value;
      assert Split(s, " ") == [a] + Split(rest, " ");
      BeforeAvoidsSeparator(s, " ");
      BeforeAvoidsSeparator(rest, " ");
      FieldAfterSpace(s, a, rest);
    }
  }

  /** The field read after the first space ends the string or is followed by a space. */
  lemma FieldAfterSpace(s: string, a: string, rest: string)
    requires s == a + " " + rest
    ensures var c := Before(rest, " ");
            a + " " + c <= s && (|s| == |a| + 1 + |c| || s[|a| + 1 + |c|] == ' ')
  {
    var c := Before(rest, " ");
    assert rest[..|c|] == c;
    assert (a + " " + c) == s[..|a| + 1 + |c|];
    if IndexOf(rest, " ").Some? {
      var i := IndexOf(rest, " ").value;
      assert rest[i..i + 1] == " ";
      assert s[|a| + 1 + i] == rest[i];
    }
  }

  /** A booking time "YYYY-MM-DD HH:MM:SS" yields its clock part. */
  lemma BookingTimeOfDateAndClock(date: string, clock: string)
    requires !Contains(date, " ") && !Contains(clock, " ")
    ensures BookingTime(date + " " + clock) == Str(clock)
  {
    var s := date + " " + clock;
    forall j: nat | j < |date|
      ensures !MatchesAt(s, " ", j)
    {
      NotContainsAt(date, " ", j);
      assert s[j..j + 1] == date[j..j + 1];
    }
    assert s[|date|..|date| + 1] == " ";
    assert MatchesAt(s, " ", |date|);
    assert IndexOf(s, " ") == Some(|date|);
    assert Before(s, " ") == date;
    assert s[|date| + 1..] == clock;
    assert After(s, " ") == Some(clock);
    assert After(clock, " ").None?;
    assert Split(s, " ") == [date] + Split(clock, " ");
  }

  /** The condition under which a booking result is applied: `resultData && resultData.success
      && resultData.appointmentInfo`. */
  predicate BookingApplies(result: Value) {
    Truthy(result) && Truthy(Prop(result, "success")) && Truthy(Prop(result, "appointmentInfo"))
  }

  /** The appointment after a booking: the stored fields, then the booked doctor, "Confirmed",
      the date, the clock time, the consultation type and the payment link and reference
      (each `''` when absent). */
  function BookedAppointment(appointment: map<string, Value>, info: Value, payment: Value, startDateTime: string)
    : (r: map<string, Value>)
    ensures r.Keys == appointment.Keys + BookingFields
    ensures forall k :: k in appointment && k !in BookingFields ==> r[k] == appointment[k]
    ensures r["status"] == Str("Confirmed") && r["time"] == BookingTime(startDateTime)
    ensures r["doctor"] == Prop(info, "appointed_doctor") && r["date"] == Prop(info, "calculated_date")
    ensures r["consultationType"] == Prop(info, "consultation_type")
    ensures r["paymentLink"] == Or(Prop(payment, "short_url"), Str(""))
    ensures r["bookingId"] == Or(Prop(payment, "reference_id"), Str(""))
  {
    appointment + map[
      "doctor" := Prop(info, "appointed_doctor"),
      "status" := Str("Confirmed"),
      "date" := Prop(info, "calculated_date"),
      "time" := BookingTime(startDateTime),
      "consultationType" := Prop(info, "consultation_type"),
      "paymentLink" := Or(Prop(payment, "short_url"), Str("")),
      "bookingId" := Or(Prop(payment, "reference_id"), Str(""))]
  }

  /** The booking branch of the tool-result listener. A `startDateTime` that is not a string
      makes `.split` throw; the listener catches it and nothing is stored. */
  function BookingMerge(state: Consultation, result: Value): (r: Consultation)
    ensures r.symptoms == state.symptoms && r.assessmentStatus == state.assessmentStatus
    ensures !BookingApplies(result) ==> r == state
    ensures BookingApplies(result) && !Prop(Prop(result, "appointmentInfo"), "startDateTime").Str? ==> r == state
    ensures BookingApplies(result) && Prop(Prop(result, "appointmentInfo"), "startDateTime").Str? ==>
      && MapGet(r.appointment, "status") == Str("Confirmed")
      && Truthy(MapGet(r.appointment, "paymentLink")) == Truthy(Prop(Prop(result, "payment"), "short_url"))
      && (MapGet(r.appointment, "time").Str? <==> Contains(Prop(Prop(result, "appointmentInfo"), "startDateTime").s, " "))
      && forall k :: k in state.appointment && k !in BookingFields ==> MapGet(r.appointment, k) == state.appointment[k]
    ensures BookingApplies(result) && Prop(Prop(result, "appointmentInfo"), "startDateTime").Str? ==>
      var info := Prop(result, "appointmentInfo");
      var payment := Prop(result, "payment");
      && r.appointment.Keys == state.appointment.Keys + BookingFields
      && MapGet(r.appointment, "time") == BookingTime(Prop(info, "startDateTime").s)
      && MapGet(r.appointment, "doctor") == Prop(info, "appointed_doctor")
      && MapGet(r.appointment, "date") == Prop(info, "calculated_date")
      && MapGet(r.appointment, "consultationType") == Prop(info, "consultation_type")
      && MapGet(r.appointment, "paymentLink") == Or(Prop(payment, "short_url"), Str(""))
      && MapGet(r.appointment, "bookingId") == Or(Prop(payment, "reference_id"), Str(""))
  {
    if !BookingApplies(result) then state
    else
      var info := Prop(result, "appointmentInfo");
      match Prop(info, "startDateTime")
      case Str(sdt) =>
        Consultation(state.symptoms, BookedAppointment(state.appointment, info, Prop(result, "payment"), sdt),
                     state.assessmentStatus)
      case _ => state
  }

  /** The fields a booking writes. */
  const BookingFields: set<string> :=
    {"doctor", "status", "date", "time", "consultationType", "paymentLink", "bookingId"}

  /** Applying the same booking result twice stores what applying it once stores. */
  lemma BookingMergeIdempotent(state: Consultation, result: Value)
    ensures BookingMerge(BookingMerge(state, result), result) == BookingMerge(state, result)
  {
    if BookingApplies(result) && Prop(Prop(result, "appointmentInfo"), "startDateTime").Str? {
      var info := Prop(result, "appointmentInfo");
      var sdt := Prop(info, "startDateTime").s;
      var once := BookedAppointment(state.appointment, info, Prop(result, "payment"), sdt);
      var twice := BookedAppointment(once, info, Prop(result, "payment"), sdt);
      assert twice.Keys == once.Keys;
      assert forall k :: k in once ==> twice[k] == once[k];
      assert twice == once;
    }
  }

  /** A successful booking whose start is "<date> <clock>": the clock becomes the time, the
      payment's short link the payment link, and a missing reference becomes `''`. */
  lemma BookingMergeOfTypicalResult(state: Consultation, doctor: string, date: string, clock: string, link: string)
    requires !Contains(date, " ") && !Contains(clock, " ")
    ensures var info := Obj([("appointed_doctor", Str(doctor)), ("startDateTime", Str(date + " " + clock))]);
            var payment := Obj([("short_url", Str(link))]);
            var result := Obj([("success", Bool(true)), ("appointmentInfo", info), ("payment", payment)]);
            var r := BookingMerge(state, result).appointment;
            && MapGet(r, "time") == Str(clock) && MapGet(r, "paymentLink") == Or(Str(link), Str(""))
            && MapGet(r, "bookingId") == Str("") && MapGet(r, "doctor") == Str(doctor)
            && MapGet(r, "status") == Str("Confirmed")
  {
    var info := Obj([("appointed_doctor", Str(doctor)), ("startDateTime", Str(date + " " + clock))]);
    var payment := Obj([("short_url", Str(link))]);
    var result := Obj([("success", Bool(true)), ("appointmentInfo", info), ("payment", payment)]);
    var sdt := date + " " + clock;
    BookingTimeOfDateAndClock(date, clock);
    assert BookingTime(sdt) == Str(clock);
    GetAt(result.entries, 1, "appointmentInfo");
    GetAt(result.entries, 2, "payment");
    GetAt(info.entries, 1, "startDateTime");
    GetAbsent(payment.entries, "reference_id");
    assert Prop(result, "appointmentInfo") == info && Prop(result, "payment") == payment;
    assert Prop(info, "startDateTime") == Str(sdt);
    assert Prop(payment, "short_url") == Str(link) && Prop(payment, "reference_id") == Undefined;
    assert Prop(info, "appointed_doctor") == Str(doctor);
    assert BookingApplies(result);
    var r := BookingMerge(state, result).appointment;
    assert MapGet(r, "time") == BookingTime(sdt);
  }

  /** The tool-result listener. `parsed` is the result text after `JSON.parse`, `None` when it
      does not parse (the listener catches that and changes nothing); `header` is the first
      line of the slot message. The slot branch also returns the message put in front of the
      model, if any. */
  method OnToolResult(state: Consultation, toolName: string, parsed: Option<Value>, header: string)
    returns (next: Consultation, prepended: Option<string>)
    ensures toolName != "fetchslot" && toolName != "fetchSlots" && toolName != "bookappointment" ==>
      next == state && prepended.None?
    ensures parsed.None? ==> next == state && prepended.None?
    ensures toolName == "bookappointment" && parsed.Some? ==>
      next == BookingMerge(state, parsed.value) && prepended.None?
    ensures (toolName == "fetchslot" || toolName == "fetchSlots") && parsed.Some? ==>
      next.symptoms == state.symptoms && next.assessmentStatus == state.assessmentStatus
      && (prepended.Some? <==> Truthy(parsed.value) && Truthy(Prop(parsed.value, "hourly_slots"))
                               && Truthy(Prop(parsed.value, "search_criteria")))
    ensures (toolName == "fetchslot" || toolName == "fetchSlots") && parsed.Some? ==>
      next == SlotDataUpdate(state, parsed.value) && prepended == SlotMessage(parsed.value, header)
  {
    next, prepended := state, None;
    if parsed.None? {
      return;
    }
    if toolName == "fetchslot" || toolName == "fetchSlots" {
      prepended := FormatAvailableSlotsMessage(parsed.value, header);
      next := ProcessSlotData(state, parsed.value);
    } else if toolName == "bookappointment" {
      next := BookingMerge(state, parsed.value);
    }
  }
}

=== FILE: form_validation.dfy ===
/** The sign-in form's check of the user's e-mail address and ten-digit phone number. */
module FormValidation {
  import opened Text
  import opened SlotFormat

  /** `/^\d{10}$/.test(phone)`: exactly ten ASCII digits. */
  predicate IsPhone(phone: string) {
    |phone| == 10 && AllDigits(phone)
  }

  /** A character `[^\s@]` admits. */
  predicate IsAddressChar(c: char) {
    !IsJsSpace(c) && c != '@'
  }

  /** A non-empty run of `[^\s@]`. */
  predicate IsAddressPart(t: string) {
    |t| > 0 && forall i :: 0 <= i < |t| ==> IsAddressChar(t[i])
  }

  /** The reading of `/^[^\s@]+@[^\s@]+\.[^\s@]+$/`: the address is `local@domain.top` with
      three non-empty parts free of white space and of `@`. */
  predicate IsEmailSplit(email: string, local: string, domain: string, top: string) {
    email == local + "@" + domain + "." + top
    && IsAddressPart(local) && IsAddressPart(domain) && IsAddressPart(top)
  }

  ghost predicate EmailShape(email: string) {
    exists local, domain, top :: IsEmailSplit(email, local, domain, top)
  }

  /** The text after the `@`: free of white space and `@`, with a dot that is neither its
      first nor its last character (the backtracking `\.` may take any such dot). */
  predicate IsDomainAndTop(d: string) {
    IsAddressPart(d) && exists i :: 0 < i < |d| - 1 && d[i] == '.'
  }

  /** The e-mail test, decided by a scan: the first run of address characters must be
      followed by `@`, and what follows must be a dotted domain. */
  predicate IsEmail(email: string) {
    var a := RunEnd(email, 0, IsAddressChar);
    0 < a < |email| && email[a] == '@' && IsDomainAndTop(email[a + 1..])
  }

  /** The scan accepts exactly the addresses the pattern describes. */
  lemma IsEmailIffShape(email: string)
    ensures IsEmail(email) <==> EmailShape(email)
  {
    if IsEmail(email) {
      ShapeOfEmail(email);
    }
    if EmailShape(email) {
      EmailOfShape(email);
    }
  }

  /** An address the scan accepts splits at its first `@` and at a later `.`. */
  lemma ShapeOfEmail(email: string)
    requires IsEmail(email)
    ensures EmailShape(email)
  {
    var a := RunEnd(email, 0, IsAddressChar);
    var d := email[a + 1..];
    var i :| 0 < i < |d| - 1 && d[i] == '.';
    var local, domain, top := email[..a], d[..i], d[i + 1..];
    assert email == local + "@" + domain + "." + top;
    assert IsAddressPart(domain) by {
      forall j | 0 <= j < |domain|
        ensures IsAddressChar(domain[j])
      {
        assert domain[j] == d[j];
      }
    }
    assert IsAddressPart(top) by {
      forall j | 0 <= j < |top|
        ensures IsAddressChar(top[j])
      {
        assert top[j] == d[i + 1 + j];
      }
    }
    assert IsEmailSplit(email, local, domain, top);
  }

  /** An address of the pattern's shape passes the scan: its local part is the leading run. */
  lemma EmailOfShape(email: string)
    requires EmailShape(email)
    ensures IsEmail(email)
  {
    var local, domain, top :| IsEmailSplit(email, local, domain, top);
    var a := |local|;
    forall k | 0 <= k < a
      ensures IsAddressChar(email[k])
    {
      assert email[k] == local[k];
    }
    assert email[a] == '@';
    RunEndAt(email, 0, a, IsAddressChar);
    var d := email[a + 1..];
    assert d == domain + "." + top;
    assert IsAddressPart(d) by {
      forall j | 0 <= j < |d|
        ensures IsAddressChar(d[j])
      {
        if j < |domain| {
          assert d[j] == domain[j];
        } else if j > |domain| {
          assert d[j] == top[j - |domain| - 1];
        }
      }
    }
    assert d[|domain|] == '.';
  }

  /** `validateForm(email, phone)`: the submit button is enabled exactly for an address of
      the pattern's shape and a ten-digit phone number. */
  function ValidateForm(email: string, phone: string): (r: bool)
    ensures r <==> EmailShape(email) && IsPhone(phone)
  {
    IsEmailIffShape(email);
    IsEmail(email) && IsPhone(phone)
  }
}

=== FILE: format_slots.dfy ===
/** The slot helpers of the utility module: the availability map of a slot-fetch result
    rendered as "<start> to <end>" lines, the weekday tables, and reading a start time back
    out of a slot line. */
module SlotFormat {
  import opened Common
  import opened Text
  import opened JsValue

  const SlotKeyPrefix: string := "slot_available_"

  /** The key the slot service uses for the hour window `start`-`end`. */
  function SlotKey(start: nat, end: nat): string {
    SlotKeyPrefix + NatToString(start) + "-" + NatToString(end)
  }

  /** The two hours captured by `/slot_available_(\d+)-(\d+)/` when its match starts at `p`.
      Both `\d+` are greedy and a shorter run would leave a digit where `-` (or nothing) is
      needed, so backtracking never helps: the first group is the whole digit run after the
      prefix, which must be followed by `-` and a digit, and the second group is the whole
      digit run after `-`. The groups are read with `parseInt`. */
  function SlotKeyAt(key: string, p: nat): Option<(nat, nat)> {
    if !MatchesAt(key, SlotKeyPrefix, p) then None
    else
      var rest := key[p + |SlotKeyPrefix|..];
      var n1 := LeadingRun(rest, IsDigit);
      if n1 == 0 || n1 == |rest| || rest[n1] != '-' then None
      else
        var tail := rest[n1 + 1..];
        var n2 := LeadingRun(tail, IsDigit);
        if n2 == 0 then None
        else Some((DigitsValue(rest[..n1]), DigitsValue(tail[..n2])))
  }

  /** The leftmost match at or after `p`. */
  function SlotKeyFrom(key: string, p: nat): (r: Option<(nat, nat)>)
    ensures r.Some? ==> exists q :: p <= q <= |key| && SlotKeyAt(key, q) == r
    ensures r.None? ==> forall q :: p <= q ==> SlotKeyAt(key, q).None?
    decreases |key| - p
  {
    if p > |key| then None
    else
      match SlotKeyAt(key, p)
      case Some(h) => Some(h)
      case None => SlotKeyFrom(key, p + 1)
  }

  /** `slotKey.match(/slot_available_(\d+)-(\d+)/)`, as the two parsed hours. */
  function MatchSlotKey(key: string): Option<(nat, nat)> {
    SlotKeyFrom(key, 0)
  }

  /** The key pattern reads back the hours a slot key was built from. */
  lemma MatchSlotKeyOfSlotKey(start: nat, end: nat)
    ensures MatchSlotKey(SlotKey(start, end)) == Some((start, end))
  {
    var a := NatToString(start);
    var b := NatToString(end);
    var key := SlotKey(start, end);
    assert key == SlotKeyPrefix + (a + ("-" + b));
    assert key[..|SlotKeyPrefix|] == SlotKeyPrefix;
    var rest := key[|SlotKeyPrefix|..];
    assert rest == a + ("-" + b);
    LeadingRunOfPrefix(a, "-" + b, IsDigit);
    assert rest[|a|] == '-';
    assert rest[..|a|] == a;
    var tail := rest[|a| + 1..];
    assert tail == b + "";
    LeadingRunOfPrefix(b, "", IsDigit);
    assert tail[..|b|] == b;
    DigitsValueOfNatToString(start);
    DigitsValueOfNatToString(end);
    assert SlotKeyAt(key, 0) == Some((start, end));
  }

  /** A key made only of digits (an array index, say) never matches the key pattern. */
  lemma DigitKeyNeverMatches(key: string)
    requires AllDigits(key)
    ensures MatchSlotKey(key).None?
  {
    forall q: nat
      ensures !MatchesAt(key, SlotKeyPrefix, q)
    {
      if q + |SlotKeyPrefix| <= |key| {
        assert key[q..q + |SlotKeyPrefix|][0] == key[q];
      }
    }
  }

  /** One hour on the 12-hour clock: below 12 it is "h:00 AM", 12 is "12:00 PM", and above 12
      it is "(h-12):00 PM" with no upper bound. */
  function FormatHour(h: nat): (r: string)
    ensures |r| >= 7 && r[|r| - 1] == 'M'
    ensures r[|r| - 2] == 'A' <==> h < 12
    ensures r[|r| - 2..] == if h < 12 then "AM" else "PM"
  {
    if h < 12 then NatToString(h) + ":00 AM"
    else NatToString(if h == 12 then 12 else h - 12) + ":00 PM"
  }

  /** One slot line: "<start> to <end>". */
  function FormatSlot(start: nat, end: nat): string {
    FormatHour(start) + " to " + FormatHour(end)
  }

  /** Reads a rendered hour "d:00 AM" or "d:00 PM" back as an hour of the day. */
  function ParseHour(s: string): Option<nat> {
    if |s| < 7 then None
    else
      var digits := s[..|s| - 6];
      var suffix := s[|s| - 6..];
      if !AllDigits(digits) then None
      else if suffix == ":00 AM" then Some(DigitsValue(digits))
      else if suffix == ":00 PM" then
        var d := DigitsValue(digits);
        Some(if d == 12 then 12 else d + 12)
      else None
  }

  /** On the hours of a day the rendering loses nothing. */
  lemma FormatHourRoundTrip(h: nat)
    requires h < 24
    ensures ParseHour(FormatHour(h)) == Some(h)
  {
    var d := if h < 12 then h else if h == 12 then 12 else h - 12;
    var m := if h < 12 then ":00 AM" else ":00 PM";
    var s := FormatHour(h);
    assert s == NatToString(d) + m;
    assert s[..|s| - 6] == NatToString(d);
    assert s[|s| - 6..] == m;
    DigitsValueOfNatToString(d);
  }

  /** Past noon the rendering is "(h-12):00 PM" for every hour, without an upper bound; read
      back it gives the hour again, except 24, which reads as noon. */
  lemma FormatHourAfterNoon(h: nat)
    requires h > 12
    ensures FormatHour(h) == NatToString(h - 12) + ":00 PM"
    ensures ParseHour(FormatHour(h)) == Some(if h == 24 then 12 else h)
  {
    var s := FormatHour(h);
    assert s[..|s| - 6] == NatToString(h - 12);
    assert s[|s| - 6..] == ":00 PM";
    DigitsValueOfNatToString(h - 12);
  }

  /** The edge cases of the rendering: midnight is "0:00 AM", not "12:00 AM", and an hour
      past 23 is not rejected, so hour 24 renders like noon. */
  lemma FormatHourEdges()
    ensures FormatHour(0) == "0:00 AM"
    ensures FormatHour(12) == "12:00 PM"
    ensures FormatHour(13) == "1:00 PM"
    ensures FormatHour(24) == FormatHour(12)
  {
    assert NatToString(0) == "0";
    assert NatToString(1) == "1";
    assert NatToString(12) == NatToString(1) + "2";
  }

  /** An entry of the availability map that yields a slot line: its value is exactly the
      string "available" and its key matches the key pattern. */
  predicate Qualifies(entry: (string, Value)) {
    entry.1 == Str("available") && MatchSlotKey(entry.0).Some?
  }

  /** The line a qualifying entry yields. */
  function SlotLine(entry: (string, Value)): string {
    match MatchSlotKey(entry.0)
    case Some((start, end)) => FormatSlot(start, end)
    case None => ""
  }

  /** The loop of `formatAvailableSlots` over the entries it enumerates. */
  function FormatEntries(entries: seq<(string, Value)>): seq<string> {
    if |entries| == 0 then []
    else
      var last := entries[|entries| - 1];
      FormatEntries(entries[..|entries| - 1]) + (if Qualifies(last) then [SlotLine(last)] else [])
  }

  /** Entry `i` adds its line to those of the entries before it exactly when it qualifies. */
  lemma FormatEntriesPrefixStep(entries: seq<(string, Value)>, i: nat)
    requires i < |entries|
    ensures FormatEntries(entries[..i + 1])
         == FormatEntries(entries[..i]) + if Qualifies(entries[i]) then [SlotLine(entries[i])] else []
  {
    assert entries[..i + 1][..i] == entries[..i];
  }

  /** `formatAvailableSlots(hourlySlots)`. A falsy argument yields the empty list. */
  function FormatAvailableSlots(hourlySlots: Value): (r: seq<string>)
    ensures !hourlySlots.Obj? ==> r == []
  {
    if !Truthy(hourlySlots) then []
    else if !hourlySlots.Obj? then
      FormatDigitKeyedEntries(Entries(hourlySlots));
      FormatEntries(Entries(hourlySlots))
    else FormatEntries(Entries(hourlySlots))
  }

  /** The slot lines of the qualifying entries, in order. */
  function SlotLines(entries: seq<(string, Value)>): (r: seq<string>)
    ensures |r| == |entries|
    ensures forall i :: 0 <= i < |entries| ==> r[i] == SlotLine(entries[i])
  {
    seq(|entries|, i requires 0 <= i < |entries| => SlotLine(entries[i]))
  }

  /** The output has exactly one line per qualifying entry, rendered from that entry's key,
      in the order of the map; every other entry is skipped. */
  lemma {:induction false} FormatEntriesIsFilterThenRender(entries: seq<(string, Value)>)
    ensures FormatEntries(entries) == SlotLines(Keep(entries, Qualifies))
  {
    if |entries| > 0 {
      var init := entries[..|entries| - 1];
      var last := entries[|entries| - 1];
      FormatEntriesIsFilterThenRender(init);
      assert entries == init + [last];
      KeepAppend(init, [last], Qualifies);
      KeepSingleton(last, Qualifies);
      var kept := if Qualifies(last) then [last] else [];
      SlotLinesAppend(Keep(init, Qualifies), kept);
      assert SlotLines(kept) == if Qualifies(last) then [SlotLine(last)] else [];
    }
  }

  lemma SlotLinesAppend(a: seq<(string, Value)>, b: seq<(string, Value)>)
    ensures SlotLines(a + b) == SlotLines(a) + SlotLines(b)
  {
    var l, r := SlotLines(a + b), SlotLines(a) + SlotLines(b);
    forall i | 0 <= i < |l|
      ensures l[i] == r[i]
    {
      if i < |a| {
        assert (a + b)[i] == a[i];
      } else {
        assert (a + b)[i] == b[i - |a|];
      }
    }
  }

  /** Splitting the map splits the output: the order of the entries is preserved. */
  lemma {:induction false} FormatEntriesAppend(a: seq<(string, Value)>, b: seq<(string, Value)>)
    ensures FormatEntries(a + b) == FormatEntries(a) + FormatEntries(b)
    decreases |b|
  {
    if |b| > 0 {
      var init := b[..|b| - 1];
      assert (a + b)[..|a + b| - 1] == a + init;
      assert (a + b)[|a + b| - 1] == b[|b| - 1];
      FormatEntriesAppend(a, init);
    } else {
      assert a + b == a;
    }
  }

  /** Entries whose keys are all digit strings produce no line. */
  lemma {:induction false} FormatDigitKeyedEntries(entries: seq<(string, Value)>)
    requires forall i :: 0 <= i < |entries| ==> AllDigits(entries[i].0)
    ensures FormatEntries(entries) == []
  {
    if |entries| > 0 {
      DigitKeyNeverMatches(entries[|entries| - 1].0);
      FormatDigitKeyedEntries(entries[..|entries| - 1]);
    }
  }

  /** Only an object yields slot lines: `null`/`undefined` and other falsy values are
      refused up front, and arrays and strings enumerate index keys, which never match. */
  lemma FormatAvailableSlotsOfNonObject(hourlySlots: Value)
    requires !hourlySlots.Obj?
    ensures FormatAvailableSlots(hourlySlots) == []
  {
    if Truthy(hourlySlots) {
      FormatDigitKeyedEntries(Entries(hourlySlots));
    }
  }

  lemma NineToTen()
    ensures SlotKey(9, 10) == "slot_available_9-10"
    ensures FormatSlot(9, 10) == "9:00 AM to 10:00 AM"
  {
    assert NatToString(9) == "9";
    assert NatToString(10) == "10" by { assert NatToString(10) == NatToString(1) + "0"; }
    assert FormatHour(9) == "9:00 AM";
    assert FormatHour(10) == "10:00 AM";
  }

  /** The worked example of a slot-fetch result: one available and one booked hour. */
  lemma FormatAvailableSlotsExample()
    ensures FormatAvailableSlots(Obj([("slot_available_9-10", Str("available")),
                                      ("slot_available_10-11", Str("booked"))]))
         == ["9:00 AM to 10:00 AM"]
  {
    var entries := [("slot_available_9-10", Str("available")), ("slot_available_10-11", Str("booked"))];
    assert Qualifies(entries[0]) && SlotLine(entries[0]) == "9:00 AM to 10:00 AM" by {
      NineToTen();
      MatchSlotKeyOfSlotKey(9, 10);
    }
    var first := entries[..1];
    assert FormatEntries(first) == ["9:00 AM to 10:00 AM"] by {
      assert first[..0] == [];
    }
    assert FormatEntries(entries) == FormatEntries(first) by {
      assert entries[..|entries| - 1] == first;
      assert !Qualifies(entries[1]);
    }
  }

  predicate IsMeridiemLetter(c: char) {
    c == 'A' || c == 'a' || c == 'P' || c == 'p'
  }

  predicate IsM(c: char) {
    c == 'M' || c == 'm'
  }

  /** End of the maximal run of characters satisfying `p` that starts at `i`. */
  function RunEnd(s: string, i: nat, p: char -> bool): (j: nat)
    requires i <= |s|
    ensures i <= j <= |s|
    ensures forall k :: i <= k < j ==> p(s[k])
    ensures j < |s| ==> !p(s[j])
    decreases |s| - i
  {
    if i < |s| && p(s[i]) then RunEnd(s, i + 1, p) else i
  }

  /** A run ends where the characters stop satisfying `p`. */
  lemma RunEndAt(s: string, i: nat, j: nat, p: char -> bool)
    requires i <= j <= |s|
    requires forall k :: i <= k < j ==> p(s[k])
    requires j < |s| ==> !p(s[j])
    ensures RunEnd(s, i, p) == j
    decreases j - i
  {
    if i < j {
      RunEndAt(s, i + 1, j, p);
    }
  }

  /** Length of the match of `/\d+:\d+\s*(AM|PM)/i` that starts at `p`, if any. Each run is
      greedy and a shorter run would leave a digit or a space where the next part of the
      pattern cannot start, so the match exists exactly when the maximal runs line up. */
  function ClockAt(s: string, p: nat): (r: Option<nat>)
    requires p <= |s|
    ensures r.Some? ==> 0 < r.value && p + r.value <= |s|
  {
    var q := RunEnd(s, p, IsDigit);
    if q == p || q == |s| || s[q] != ':' then None
    else
      var r := RunEnd(s, q + 1, IsDigit);
      if r == q + 1 then None
      else
        var t := RunEnd(s, r, IsJsSpace);
        if t + 2 <= |s| && IsMeridiemLetter(s[t]) && IsM(s[t + 1]) then Some(t + 2 - p) else None
  }

  /** The leftmost clock match at or after `p`, as (start, length). */
  function ClockFrom(s: string, p: nat): (r: Option<(nat, nat)>)
    requires p <= |s|
    ensures r.Some? ==> p <= r.value.0 <= |s| && ClockAt(s, r.value.0) == Some(r.value.1)
    ensures r.Some? ==> forall q :: p <= q < r.value.0 ==> ClockAt(s, q).None?
    ensures r.None? ==> forall q :: p <= q <= |s| ==> ClockAt(s, q).None?
    decreases |s| - p
  {
    match ClockAt(s, p)
    case Some(n) => Some((p, n))
    case None =>
      if p == |s| then None
      else
        var rest := ClockFrom(s, p + 1);
        NoClockExtends(s, p, if rest.Some? then rest.value.0 else |s| + 1);
        rest
  }

  /** No match at `p` and none from `p + 1` up to `hi` means none from `p` up to `hi`. */
  lemma NoClockExtends(s: string, p: nat, hi: nat)
    requires p < |s| && p < hi <= |s| + 1 && ClockAt(s, p).None?
    requires forall q :: p + 1 <= q < hi ==> ClockAt(s, q).None?
    ensures forall q :: p <= q < hi ==> ClockAt(s, q).None?
  {
  }

  /** `getStartTimeFromSlot(slot)`: "" for an empty slot or when no clock time occurs,
      otherwise the leftmost clock time, with the case of its letters kept. */
  function GetStartTimeFromSlot(slot: string): (r: string)
    ensures slot == "" ==> r == ""
    ensures r != "" <==> ClockFrom(slot, 0).Some?
    ensures r != "" ==> IsLeftmostClock(slot, r)
  {
    if slot == "" then ""
    else
      match ClockFrom(slot, 0)
      case Some((p, n)) => LeftmostClock(slot, p, n); slot[p..p + n]
      case None => ""
  }

  /** `t` is the full text of the leftmost clock match in `slot`: the pattern matches `t`
      in full at some position, and at no earlier one. */
  ghost predicate IsLeftmostClock(slot: string, t: string) {
    exists p :: 0 <= p <= |slot| && ClockAt(slot, p) == Some(|t|) && t == slot[p..p + |t|]
                && forall q :: 0 <= q < p ==> ClockAt(slot, q).None?
  }

  /** The text of a clock match at `p`, with none before it, is the leftmost match. */
  lemma LeftmostClock(slot: string, p: nat, n: nat)
    requires p <= |slot| && ClockAt(slot, p) == Some(n)
    requires forall q :: 0 <= q < p ==> ClockAt(slot, q).None?
    ensures p + n <= |slot| && slot[p..p + n] != ""
    ensures IsLeftmostClock(slot, slot[p..p + n])
  {
    assert |slot[p..p + n]| == n;
  }

  /** The clock pattern matches "<digits>:00 AM" (or PM) in full at the start of `s`. */
  lemma ClockAtShape(s: string, n: nat)
    requires 0 < n && n + 6 <= |s|
    requires forall k :: 0 <= k < n ==> IsDigit(s[k])
    requires s[n] == ':' && s[n + 1] == '0' && s[n + 2] == '0' && s[n + 3] == ' '
    requires IsMeridiemLetter(s[n + 4]) && IsM(s[n + 5])
    ensures ClockAt(s, 0) == Some(n + 6)
  {
    RunEndAt(s, 0, n, IsDigit);
    RunEndAt(s, n + 1, n + 3, IsDigit);
    RunEndAt(s, n + 3, n + 4, IsJsSpace);
  }

  /** The clock pattern matches digits followed by ":00 AM" or ":00 PM" in full. */
  lemma ClockAtDigitsThenMeridiem(d: string, m: string, rest: string)
    requires |d| > 0 && AllDigits(d)
    requires m == ":00 AM" || m == ":00 PM"
    ensures ClockAt(d + m + rest, 0) == Some(|d| + 6)
  {
    var s := d + m + rest;
    var n := |d|;
    forall k | 0 <= k < n
      ensures IsDigit(s[k])
    {
      assert s[k] == d[k];
    }
    assert s[n] == m[0] && s[n + 1] == m[1] && s[n + 2] == m[2];
    assert s[n + 3] == m[3] && s[n + 4] == m[4] && s[n + 5] == m[5];
    ClockAtShape(s, n);
  }

  /** The clock pattern matches a rendered hour in full at the start of a line. */
  lemma ClockAtRenderedHour(h: nat, rest: string)
    ensures ClockAt(FormatHour(h) + rest, 0) == Some(|FormatHour(h)|)
  {
    var d := NatToString(if h < 12 then h else if h == 12 then 12 else h - 12);
    var m := if h < 12 then ":00 AM" else ":00 PM";
    assert FormatHour(h) == d + m;
    ClockAtDigitsThenMeridiem(d, m, rest);
  }

  /** Round trip: the start time read from a slot line is exactly its rendered start hour. */
  lemma StartTimeOfSlotLine(start: nat, end: nat)
    ensures GetStartTimeFromSlot(FormatSlot(start, end)) == FormatHour(start)
  {
    var rest := " to " + FormatHour(end);
    ClockAtRenderedHour(start, rest);
    assert FormatSlot(start, end) == FormatHour(start) + rest;
    StartTimeOfClockPrefix(FormatHour(start), rest);
  }

  /** A line that opens with a full clock match yields that match as its start time. */
  lemma StartTimeOfClockPrefix(a: string, rest: string)
    requires |a| > 0 && ClockAt(a + rest, 0) == Some(|a|)
    ensures GetStartTimeFromSlot(a + rest) == a
  {
    var s := a + rest;
    assert ClockFrom(s, 0) == Some((0, |a|));
    assert s[0..|a|] == a;
  }

  /** No rendered hour contains the letter 't', so none contains " to ". */
  lemma RenderedHourHasNoT(h: nat)
    ensures forall i :: 0 <= i < |FormatHour(h)| ==> FormatHour(h)[i] != 't'
  {
    var d := NatToString(if h < 12 then h else if h == 12 then 12 else h - 12);
    var m := if h < 12 then ":00 AM" else ":00 PM";
    assert FormatHour(h) == d + m;
    forall i | 0 <= i < |FormatHour(h)|
      ensures FormatHour(h)[i] != 't'
    {
      if i < |d| {
        assert FormatHour(h)[i] == d[i];
      } else {
        assert FormatHour(h)[i] == m[i - |d|];
      }
    }
  }

  /** The first " to " of a slot line is the one between its two hours. */
  lemma FirstSeparatorOfSlotLine(start: nat, end: nat)
    ensures Before(FormatSlot(start, end), " to ") == FormatHour(start)
  {
    RenderedHourHasNoT(start);
    FirstSeparatorAfter(FormatHour(start), FormatHour(end));
  }

  /** In `a + " to " + b` with no 't' in `a`, the first " to " is the one after `a`. */
  lemma FirstSeparatorAfter(a: string, b: string)
    requires forall i :: 0 <= i < |a| ==> a[i] != 't'
    ensures Before(a + " to " + b, " to ") == a
  {
    var rest := " to " + b;
    var s := a + rest;
    assert a + " to " + b == s;
    NoSeparatorBefore(a, rest);
    assert s[|a|..|a| + 4] == " to ";
    BeforeAt(s, " to ", |a|);
    assert s[..|a|] == a;
  }

  /** A text without 't' followed by a space holds no " to " that starts inside the text. */
  lemma NoSeparatorBefore(a: string, rest: string)
    requires forall i :: 0 <= i < |a| ==> a[i] != 't'
    requires |rest| > 0 && rest[0] == ' '
    ensures forall j: nat :: j < |a| ==> !MatchesAt(a + rest, " to ", j)
  {
    var s := a + rest;
    forall j: nat | j < |a|
      ensures !MatchesAt(s, " to ", j)
    {
      if j + 1 < |a| {
        assert s[j + 1] == a[j + 1];
      } else {
        assert s[j + 1] == ' ';
      }
      if j + 4 <= |s| {
        assert s[j..j + 4][1] == s[j + 1];
      }
    }
  }

  const WeekdayNames: seq<string> :=
    ["Sunday", "Monday", "Tuesday", "Wednesday", "Thursday", "Friday", "Saturday"]

  const DayAbbreviations: map<string, string> :=
    map["Monday" := "mon", "Tuesday" := "tue", "Wednesday" := "wed", "Thursday" := "thu",
        "Friday" := "fri", "Saturday" := "sat", "Sunday" := "sun"]

  /** `getDayAbbreviation(dayName)` as written: `days[dayName] || ''` on an object literal,
      which also reads the members every object inherits. */
  function DayAbbreviationAsWritten(dayName: string): (r: PropertyRead)
    ensures r.Inherited? <==> dayName !in DayAbbreviations && dayName in ObjectPrototypeMembers
    ensures dayName !in ObjectPrototypeMembers ==> r == Own(DayAbbreviation(dayName))
  {
    ReadLiteralOr(DayAbbreviations, dayName, "")
  }

  /** `getDayAbbreviation(dayName)` as intended: the first three letters, lower-cased, of
      each of the seven English day names, and "" for every other name. */
  function DayAbbreviation(dayName: string): (r: string)
    ensures r != "" <==> dayName in WeekdayNames
    ensures r != "" ==> r == Lower(dayName[..3])
  {
    if dayName in DayAbbreviations then DayAbbreviations[dayName] else ""
  }

  /** Reading an inherited member name returns that member, not "". */
  lemma DayAbbreviationOfInheritedName()
    ensures DayAbbreviationAsWritten("toString") == Inherited("toString")
    ensures DayAbbreviation("toString") == ""
  {
  }

  /** Away from the inherited member names the code as written and the intended lookup agree. */
  lemma DayAbbreviationAgreesOffPrototype(dayName: string)
    requires dayName !in ObjectPrototypeMembers
    ensures DayAbbreviationAsWritten(dayName) == Own(DayAbbreviation(dayName))
  {
  }

  /** `new Date(dateStr).getDay()`: 0 for Sunday up to 6 for Saturday. */
  type WeekdayIndex = i: int | 0 <= i < 7

  /** `getDayFromDate(dateStr)`, with the weekday the date falls on given as `weekday`
      (`None` for an invalid date, whose `getDay()` is NaN). */
  function GetDayFromDate(dateStr: Value, weekday: Option<WeekdayIndex>): (r: Value)
    ensures !Truthy(dateStr) ==> r == Str("")
    ensures Truthy(dateStr) && weekday.None? ==> r == Undefined
    ensures Truthy(dateStr) && weekday.Some? ==> r.Str? && r.s in WeekdayNames && DayAbbreviation(r.s) != ""
    ensures Truthy(dateStr) && weekday.Some? ==> r == Str(WeekdayNames[weekday.value])
  {
    if !Truthy(dateStr) then Str("")
    else
      match weekday
      case None => Undefined
      case Some(i) => Str(WeekdayNames[i])
  }

  /** Sunday is weekday 0, different weekdays give different names, and the name of
      weekday `i` abbreviates to the `i`-th of "sun" … "sat". */
  lemma GetDayFromDateByWeekday(dateStr: Value, i: WeekdayIndex, j: WeekdayIndex)
    requires Truthy(dateStr)
    ensures GetDayFromDate(dateStr, Some(0)) == Str("Sunday")
    ensures i != j ==> GetDayFromDate(dateStr, Some(i)) != GetDayFromDate(dateStr, Some(j))
    ensures DayAbbreviation(GetDayFromDate(dateStr, Some(i)).s)
         == ["sun", "mon", "tue", "wed", "thu", "fri", "sat"][i]
  {
    var name := WeekdayNames[i];
    assert GetDayFromDate(dateStr, Some(i)).s == name;
    assert name in DayAbbreviations;
    assert DayAbbreviations[name] == ["sun", "mon", "tue", "wed", "thu", "fri", "sat"][i];
  }

  /** The day table lists the seven names from Sunday to Saturday, and they have seven
      distinct abbreviations. */
  lemma WeekdayTable()
    ensures WeekdayNames == ["Sunday", "Monday", "Tuesday", "Wednesday", "Thursday", "Friday", "Saturday"]
    ensures forall i, j :: 0 <= i < j < 7 ==>
      DayAbbreviation(WeekdayNames[i]) != DayAbbreviation(WeekdayNames[j])
  {
  }
}

=== FILE: js_value.dfy ===
/** The JavaScript values the source handles after `JSON.parse`, with the language's
    truthiness, `||`, property reads, `Object.entries` and object spread made explicit. */
module JsValue {
  import opened Common
  import opened Text

  /** A JavaScript value. `Obj(entries)` stands for the object whose `Object.entries`
      list is `entries`, so its keys are distinct and in enumeration order. Numbers are
      integers; fractions and NaN are not part of this model. */
  datatype Value =
    | Undefined
    | Null
    | Bool(b: bool)
    | Num(n: int)
    | Str(s: string)
    | Arr(items: seq<Value>)
    | Obj(entries: seq<(string, Value)>)

  /** JavaScript truthiness: `undefined`, `null`, `false`, `0` and `""` are falsy. */
  predicate Truthy(v: Value) {
    match v
    case Undefined => false
    case Null => false
    case Bool(b) => b
    case Num(n) => n != 0
    case Str(s) => s != ""
    case Arr(_) => true
    case Obj(_) => true
  }

  /** `a || b`. */
  function Or(a: Value, b: Value): Value {
    if Truthy(a) then a else b
  }

  predicate IsNullish(v: Value) {
    v.Undefined? || v.Null?
  }

  /** `typeof v === 'object' && v !== null`: arrays count as objects. */
  predicate IsObjectLike(v: Value) {
    v.Arr? || v.Obj?
  }

  function Get(entries: seq<(string, Value)>, k: string): Value {
    if |entries| == 0 then Undefined
    else if entries[0].0 == k then entries[0].1
    else Get(entries[1..], k)
  }

  /** An own property is found at its first occurrence. */
  lemma {:induction false} GetAt(entries: seq<(string, Value)>, i: nat, k: string)
    requires i < |entries| && entries[i].0 == k
    requires forall j :: 0 <= j < i ==> entries[j].0 != k
    ensures Get(entries, k) == entries[i].1
  {
    if i > 0 {
      GetAt(entries[1..], i - 1, k);
    }
  }

  /** A key no entry has reads as `undefined`. */
  lemma {:induction false} GetAbsent(entries: seq<(string, Value)>, k: string)
    requires forall j :: 0 <= j < |entries| ==> entries[j].0 != k
    ensures Get(entries, k) == Undefined
  {
    if |entries| > 0 {
      GetAbsent(entries[1..], k);
    }
  }

  /** `v[k]` for the keys this model reads: an own property of an object, and `undefined`
      on every other value. (On `null` and `undefined` the read throws; each caller that
      can meet them handles that case itself.) */
  function Prop(v: Value, k: string): Value {
    match v
    case Obj(e) => Get(e, k)
    case _ => Undefined
  }

  /** Reading `m[k]` from a plain record. */
  function MapGet(m: map<string, Value>, k: string): Value {
    if k in m then m[k] else Undefined
  }

  /** Index-keyed entries, as arrays and strings enumerate. */
  function IndexEntries(xs: seq<Value>): (r: seq<(string, Value)>)
    ensures |r| == |xs|
    ensures forall i :: 0 <= i < |xs| ==> r[i] == (NatToString(i), xs[i])
  {
    seq(|xs|, i requires 0 <= i < |xs| => (NatToString(i), xs[i]))
  }

  /** The one-character strings of `s`. */
  function Chars(s: string): seq<Value> {
    seq(|s|, i requires 0 <= i < |s| => Str([s[i]]))
  }

  /** `Object.entries(v)` for a value that is not `null` or `undefined` (and the list of
      properties that spreading `v` copies). */
  function Entries(v: Value): seq<(string, Value)> {
    match v
    case Obj(e) => e
    case Arr(xs) => IndexEntries(xs)
    case Str(s) => IndexEntries(Chars(s))
    case _ => []
  }

  /** The record holding `entries`. */
  function ToMap(entries: seq<(string, Value)>): (m: map<string, Value>)
    ensures forall k :: k in m ==> m[k] == Get(entries, k)
    ensures forall k :: k !in m ==> Get(entries, k) == Undefined
    ensures forall i :: 0 <= i < |entries| ==> entries[i].0 in m
  {
    if |entries| == 0 then map[] else ToMap(entries[1..])[entries[0].0 := entries[0].1]
  }

  /** `{...v}`: spreading `null`, `undefined`, a boolean or a number copies nothing. */
  function Spread(v: Value): map<string, Value> {
    ToMap(Entries(v))
  }

  /** Every key of a spread array or string is a string of decimal digits. */
  lemma {:induction false} IndexKeysAreDigits(xs: seq<Value>, k: string)
    requires k in ToMap(IndexEntries(xs))
    ensures AllDigits(k)
  {
    IndexKeysInTail(IndexEntries(xs), k);
  }

  lemma {:induction false} IndexKeysInTail(e: seq<(string, Value)>, k: string)
    requires k in ToMap(e)
    requires forall i :: 0 <= i < |e| ==> AllDigits(e[i].0)
    ensures AllDigits(k)
  {
    if e[0].0 != k {
      IndexKeysInTail(e[1..], k);
    }
  }

  /** Names every object literal inherits from `Object.prototype`; reading one of them
      from a literal yields a function (or, for `__proto__`, the prototype object). */
  const ObjectPrototypeMembers: set<string> :=
    {"constructor", "hasOwnProperty", "isPrototypeOf", "propertyIsEnumerable",
     "toLocaleString", "toString", "valueOf", "__proto__", "__defineGetter__",
     "__defineSetter__", "__lookupGetter__", "__lookupSetter__"}

  /** The outcome of reading `table[key]` from an object literal of string properties. */
  datatype PropertyRead = Own(value: string) | Inherited(name: string) | Absent

  function ReadLiteral(table: map<string, string>, key: string): PropertyRead {
    if key in table then Own(table[key])
    else if key in ObjectPrototypeMembers then Inherited(key)
    else Absent
  }

  /** `table[key] || fallback`: an inherited member is truthy, so it wins over the fallback. */
  function ReadLiteralOr(table: map<string, string>, key: string, fallback: string): (r: PropertyRead)
    ensures !r.Absent?
    ensures r.Inherited? <==> key !in table && key in ObjectPrototypeMembers
    ensures key in table && table[key] != "" ==> r == Own(table[key])
    ensures key !in table && key !in ObjectPrototypeMembers ==> r == Own(fallback)
  {
    match ReadLiteral(table, key)
    case Own(s) => if s != "" then Own(s) else Own(fallback)
    case Inherited(n) => Inherited(n)
    case Absent => Own(fallback)
  }
}

=== FILE: page_merge.dfy ===
/** The page's own copy of the consultation record and the rules by which it folds in what
    the agent reports: objects found in debug messages, the payment link of a booking
    message, the record polled from the agent module, and the slot the user picks. */
module PageMerge {
  import opened Common
  import opened Text
  import opened JsValue
  import opened SlotFormat
  import opened ConsultationStore
  import opened BraceScan

  // ---------------------------------------------------------------------------------------
  // The mobile number and the appointment merge

  /** `incoming || previous || phone_number`: the appointment's mobile number after a merge. */
  function MobileNumber(incoming: Value, previous: Value, phone: string): (r: Value)
    ensures Truthy(incoming) ==> r == incoming
    ensures !Truthy(incoming) && Truthy(previous) ==> r == previous
    ensures !Truthy(incoming) && !Truthy(previous) ==> r == Str(phone)
    ensures Truthy(previous) || phone != "" ==> Truthy(r)
  {
    Or(incoming, Or(previous, Str(phone)))
  }

  /** `{...prev, ...incoming, mobileNumber: ...}`: the incoming properties win, every other
      stored property stays, and `mobileNumber` follows `MobileNumber`. */
  function MergeAppointment(prev: map<string, Value>, incoming: map<string, Value>, phone: string): (r: map<string, Value>)
    ensures r.Keys == prev.Keys + incoming.Keys + {"mobileNumber"}
    ensures MapGet(r, "mobileNumber")
         == MobileNumber(MapGet(incoming, "mobileNumber"), MapGet(prev, "mobileNumber"), phone)
    ensures forall k :: k != "mobileNumber" ==>
      MapGet(r, k) == (if k in incoming then incoming[k] else MapGet(prev, k))
  {
    (prev + incoming)["mobileNumber" := MobileNumber(MapGet(incoming, "mobileNumber"), MapGet(prev, "mobileNumber"), phone)]
  }

  /** Merging the same appointment data a second time changes nothing. */
  lemma MergeAppointmentIdempotent(prev: map<string, Value>, incoming: map<string, Value>, phone: string)
    ensures MergeAppointment(MergeAppointment(prev, incoming, phone), incoming, phone)
         == MergeAppointment(prev, incoming, phone)
  {
    var once := MergeAppointment(prev, incoming, phone);
    var twice := MergeAppointment(once, incoming, phone);
    forall k | k in twice
      ensures k in once && twice[k] == once[k]
    {
      assert MapGet(twice, k) == MapGet(once, k);
    }
  }

  /** Reading a named property of an object or array through its spread copy reads the
      property itself: an array's spread holds only index keys. This is why the merge of a
      debug-message appointment reads `appointment.mobileNumber` off the spread map. */
  lemma SpreadReadsOwnProperty(a: Value, k: string)
    requires IsObjectLike(a) && !AllDigits(k)
    ensures MapGet(Spread(a), k) == Prop(a, k)
  {
    if a.Arr? && k in Spread(a) {
      IndexKeysAreDigits(a.items, k);
    }
  }

  // ---------------------------------------------------------------------------------------
  // Symptom normalisation

  const NotSpecified: string := "Not specified"
  const UnknownSymptom: string := "Unknown symptom"

  /** The detail fields of a symptom, in the order the page writes them. */
  const DetailFields: seq<string> := ["severity", "duration", "pattern", "location", "movementImpact"]

  /** The fields of a normalised symptom. */
  const SymptomFields: seq<string> := ["symptom"] + DetailFields

  /** `{symptom: name, severity: src.severity || 'Not specified', ...}`. */
  function Normalized(name: Value, src: Value): Value {
    Obj([("symptom", name)] + seq(|DetailFields|, i requires 0 <= i < |DetailFields| =>
                                    (DetailFields[i], Or(Prop(src, DetailFields[i]), Str(NotSpecified)))))
  }

  /** What the page makes of one reported symptom: a string becomes a symptom of that name
      with every detail "Not specified"; an object or array has each falsy field defaulted,
      the name to "Unknown symptom"; anything else is dropped (`None`). */
  function NormalizeSymptom(s: Value): (r: Option<Value>)
    ensures r.Some? <==> s.Str? || IsObjectLike(s)
  {
    if s.Str? then Some(Normalized(s, Undefined))
    else if IsObjectLike(s) then Some(Normalized(Or(Prop(s, "symptom"), Str(UnknownSymptom)), s))
    else None
  }

  /** The fields of a normalised symptom, field by field: its name is the string itself or
      the object's truthy name (else "Unknown symptom"), and each detail is the object's
      truthy value or "Not specified". Every detail is therefore truthy. */
  lemma NormalizedFields(s: Value, i: nat)
    requires NormalizeSymptom(s).Some? && i < |DetailFields|
    ensures var r := NormalizeSymptom(s).value;
            && r.Obj?
            && |r.entries| == |SymptomFields|
            && (forall j :: 0 <= j < |SymptomFields| ==> r.entries[j].0 == SymptomFields[j])
            && Prop(r, "symptom") == (if s.Str? then s else Or(Prop(s, "symptom"), Str(UnknownSymptom)))
            && Prop(r, DetailFields[i]) == Or(Prop(s, DetailFields[i]), Str(NotSpecified))
            && Truthy(Prop(r, DetailFields[i]))
  {
    if s.Str? {
      NormalizedShape(s, Undefined, i);
    } else {
      NormalizedShape(Or(Prop(s, "symptom"), Str(UnknownSymptom)), s, i);
    }
  }

  /** The entries of `Normalized(name, src)`, read field by field. */
  lemma NormalizedShape(name: Value, src: Value, i: nat)
    requires i < |DetailFields|
    ensures var r := Normalized(name, src);
            && r.Obj?
            && |r.entries| == |SymptomFields|
            && (forall j :: 0 <= j < |SymptomFields| ==> r.entries[j].0 == SymptomFields[j])
            && Prop(r, "symptom") == name
            && Prop(r, DetailFields[i]) == Or(Prop(src, DetailFields[i]), Str(NotSpecified))
  {
    var e := Normalized(name, src).entries;
    assert forall j :: 0 <= j < |SymptomFields| ==> e[j].0 == SymptomFields[j];
    GetAt(e, 0, "symptom");
    assert forall j :: 0 <= j < i + 1 ==> SymptomFields[j] != SymptomFields[i + 1];
    GetAt(e, i + 1, DetailFields[i]);
  }

  /** The string-or-object test that decides whether a reported symptom is kept. */
  predicate Normalizable(s: Value) {
    s.Str? || IsObjectLike(s)
  }

  /** `symptoms.map(normalise).filter(s => s !== null)`. */
  function NormalizeAll(items: seq<Value>): (r: seq<Value>)
    ensures |r| <= |items|
    ensures forall i :: 0 <= i < |r| ==> r[i].Obj?
    decreases |items|
  {
    if |items| == 0 then []
    else
      var head := match NormalizeSymptom(items[0]) case Some(x) => [x] case None => [];
      head + NormalizeAll(items[1..])
  }

  /** The normalised list is the kept items, each normalised, in their original order. */
  lemma {:induction false} NormalizeAllKeepsOrder(items: seq<Value>)
    ensures |NormalizeAll(items)| == |Keep(items, Normalizable)|
    ensures forall i :: 0 <= i < |NormalizeAll(items)| ==>
      NormalizeSymptom(Keep(items, Normalizable)[i]) == Some(NormalizeAll(items)[i])
    decreases |items|
  {
    if |items| > 0 {
      NormalizeAllKeepsOrder(items[1..]);
      assert items == [items[0]] + items[1..];
      KeepAppend([items[0]], items[1..], Normalizable);
      if Normalizable(items[0]) {
        assert Keep([items[0]], Normalizable) == [items[0]];
      } else {
        assert Keep([items[0]], Normalizable) == [];
      }
    }
  }

  // ---------------------------------------------------------------------------------------
  // The case-insensitive duplicate filter

  /** `(s.symptom || '').toLowerCase()`. `None` is a read that throws: `.symptom` of `null`
      or `undefined`, or `toLowerCase` of a truthy name that is not a string. */
  function NameKey(s: Value): (r: Option<string>)
    ensures r.Some? <==> !IsNullish(s) && (!Truthy(Prop(s, "symptom")) || Prop(s, "symptom").Str?)
  {
    if IsNullish(s) then None
    else
      var name := Or(Prop(s, "symptom"), Str(""));
      if name.Str? then Some(Lower(name.s)) else None
  }

  predicate AllNamed(items: seq<Value>) {
    forall i :: 0 <= i < |items| ==> NameKey(items[i]).Some?
  }

  /** The lower-cased names of the stored symptoms. */
  function Names(items: seq<Value>): (r: seq<string>)
    requires AllNamed(items)
    ensures |r| == |items|
    ensures forall i :: 0 <= i < |items| ==> r[i] == NameKey(items[i]).value
  {
    seq(|items|, i requires 0 <= i < |items| => NameKey(items[i]).value)
  }

  /** Whether an incoming symptom passes the duplicate filter against the stored ones. */
  predicate IsUnseen(prev: seq<Value>, s: Value) {
    AllNamed(prev) && NameKey(s).Some? && NameKey(s).value !in Names(prev)
  }

  function UnseenSymptoms(prev: seq<Value>, batch: seq<Value>): (r: seq<Value>)
    ensures forall x :: multiset(r)[x] == if IsUnseen(prev, x) then multiset(batch)[x] else 0
  {
    var p := x => IsUnseen(prev, x);
    KeepCounts(batch, p);
    Keep(batch, p)
  }

  /** The symptom merge of the debug-message handler. The stored list stays as it is and the
      incoming symptoms whose lower-cased name no stored symptom has are appended in order;
      incoming symptoms are not compared with each other. `None` when a name read throws. */
  function MergeUnique(prev: seq<Value>, batch: seq<Value>): (r: Option<seq<Value>>)
    ensures r.None? <==> !AllNamed(prev) || !AllNamed(batch)
    ensures r.Some? ==> prev <= r.value
    ensures r.Some? ==> forall x :: x in r.value[|prev|..] <==> x in batch && NameKey(x).value !in Names(prev)
    ensures r.Some? ==> r.value[|prev|..] == UnseenSymptoms(prev, batch)
    ensures r.Some? ==> forall x :: multiset(r.value[|prev|..])[x]
                                    == if IsUnseen(prev, x) then multiset(batch)[x] else 0
  {
    if !AllNamed(prev) || !AllNamed(batch) then None
    else
      var added := UnseenSymptoms(prev, batch);
      assert (prev + added)[|prev|..] == added;
      Some(prev + added)
  }

  /** A symptom whose name differs from a stored one only in letter case is dropped. */
  lemma MergeUniqueDropsCaseVariant(prev: seq<Value>, stored: string, incoming: string)
    requires AllNamed(prev)
    requires exists i :: 0 <= i < |prev| && NameKey(prev[i]) == Some(Lower(stored))
    requires incoming != "" && Lower(incoming) == Lower(stored)
    ensures MergeUnique(prev, [Obj([("symptom", Str(incoming))])]) == Some(prev)
  {
    var item := Obj([("symptom", Str(incoming))]);
    var i :| 0 <= i < |prev| && NameKey(prev[i]) == Some(Lower(stored));
    assert Names(prev)[i] == Lower(stored);
    assert !IsUnseen(prev, item);
    assert [item][1..] == [];
    assert prev + [] == prev;
  }

  /** Two incoming symptoms with the same new name are both appended. */
  lemma MergeUniqueKeepsRepeatsWithinBatch(name: string)
    ensures var s := Obj([("symptom", Str(name))]);
            MergeUnique([], [s, s]) == Some([s, s])
  {
    var s := Obj([("symptom", Str(name))]);
    assert AllNamed([s, s]) by {
      forall i | 0 <= i < 2
        ensures NameKey([s, s][i]).Some?
      {
      }
    }
    assert IsUnseen([], s);
    assert [s, s][1..] == [s];
    assert [s][1..] == [];
    assert UnseenSymptoms([], [s, s]) == [s, s];
  }

  /** After a merge every incoming name is stored, whether it was appended or already there. */
  lemma MergedSeesBatch(prev: seq<Value>, batch: seq<Value>)
    requires MergeUnique(prev, batch).Some?
    ensures forall x :: x in batch ==> !IsUnseen(MergeUnique(prev, batch).value, x)
  {
    var once := MergeUnique(prev, batch).value;
    forall x | x in batch
      ensures !IsUnseen(once, x)
    {
      var i :| 0 <= i < |batch| && batch[i] == x;
      if NameKey(x).value !in Names(prev) {
        assert x in once[|prev|..];
        var j :| |prev| <= j < |once| && once[j] == x;
        assert Names(once)[j] == NameKey(x).value;
      } else {
        var j :| 0 <= j < |prev| && Names(prev)[j] == NameKey(x).value;
        assert once[j] == prev[j];
        assert Names(once)[j] == NameKey(x).value;
      }
    }
  }

  /** Merging the same batch again adds nothing: every incoming name is stored after the
      first merge, whether it was appended then or already there. */
  lemma MergeUniqueIdempotent(prev: seq<Value>, batch: seq<Value>)
    requires MergeUnique(prev, batch).Some?
    ensures MergeUnique(MergeUnique(prev, batch).value, batch) == MergeUnique(prev, batch)
  {
    var once := MergeUnique(prev, batch).value;
    assert AllNamed(once) by {
      forall i | 0 <= i < |once|
        ensures NameKey(once[i]).Some?
      {
        if i >= |prev| {
          assert once[i] in once[|prev|..];
        }
      }
    }
    MergedSeesBatch(prev, batch);
    KeepNone(batch, x => IsUnseen(once, x));
    assert UnseenSymptoms(once, batch) == [];
    assert once + [] == once;
  }

  // ---------------------------------------------------------------------------------------
  // One parsed debug-message object

  /** `parsed.consultationData || parsed.value?.consultationData || parsed.value || parsed`. */
  function SelectConsultationData(parsed: Value): (r: Value)
    ensures Truthy(Prop(parsed, "consultationData")) ==> r == Prop(parsed, "consultationData")
    ensures var top, nested, value :=
              Prop(parsed, "consultationData"), Prop(Prop(parsed, "value"), "consultationData"), Prop(parsed, "value");
            r == if Truthy(top) then top else if Truthy(nested) then nested else if Truthy(value) then value else parsed
    ensures !Truthy(r) ==> r == parsed
    ensures Truthy(parsed) ==> Truthy(r)
  {
    Or(Prop(parsed, "consultationData"),
       Or(Prop(Prop(parsed, "value"), "consultationData"),
          Or(Prop(parsed, "value"), parsed)))
  }

  /** The symptom step: truthy `symptoms` (a single one is wrapped in a list) are normalised,
      and if any survive they are merged and the status becomes `obj.assessmentStatus ||`
      the stored status. */
  function ApplySymptoms(state: Consultation, obj: Value): (r: Option<Consultation>)
    ensures r.Some? ==> r.value.appointment == state.appointment && state.symptoms <= r.value.symptoms
    ensures !Truthy(Prop(obj, "symptoms")) ==> r == Some(state)
    ensures Truthy(Prop(obj, "symptoms")) && NormalizeAll(AsList(Prop(obj, "symptoms"))) == [] ==> r == Some(state)
    ensures Truthy(Prop(obj, "symptoms")) && NormalizeAll(AsList(Prop(obj, "symptoms"))) != [] ==>
      var merged := MergeUnique(state.symptoms, NormalizeAll(AsList(Prop(obj, "symptoms"))));
      && (r.None? <==> merged.None?)
      && (r.Some? ==> r.value.symptoms == merged.value
                      && r.value.assessmentStatus == Or(Prop(obj, "assessmentStatus"), state.assessmentStatus))
  {
    var reported := Prop(obj, "symptoms");
    if !Truthy(reported) then Some(state)
    else
      var processed := NormalizeAll(AsList(reported));
      if |processed| == 0 then Some(state)
      else
        match MergeUnique(state.symptoms, processed)
        case None => None
        case Some(merged) =>
          Some(state.(symptoms := merged,
                      assessmentStatus := Or(Prop(obj, "assessmentStatus"), state.assessmentStatus)))
  }

  /** The appointment step: an object or array `appointment` is spread over the stored one
      with the mobile-number rule. */
  function ApplyAppointment(state: Consultation, obj: Value, phone: string): (r: Consultation)
    ensures r.symptoms == state.symptoms && r.assessmentStatus == state.assessmentStatus
    ensures !IsObjectLike(Prop(obj, "appointment")) ==> r == state
    ensures IsObjectLike(Prop(obj, "appointment")) ==>
      MapGet(r.appointment, "mobileNumber")
      == MobileNumber(Prop(Prop(obj, "appointment"), "mobileNumber"),
                      MapGet(state.appointment, "mobileNumber"), phone)
    ensures IsObjectLike(Prop(obj, "appointment")) ==>
      var incoming := Spread(Prop(obj, "appointment"));
      && r.appointment.Keys == state.appointment.Keys + incoming.Keys + {"mobileNumber"}
      && forall k :: k != "mobileNumber" ==>
           MapGet(r.appointment, k) == (if k in incoming then incoming[k] else MapGet(state.appointment, k))
  {
    var a := Prop(obj, "appointment");
    if IsObjectLike(a) then
      assert !IsDigit("mobileNumber"[0]);
      SpreadReadsOwnProperty(a, "mobileNumber");
      state.(appointment := MergeAppointment(state.appointment, Spread(a), phone))
    else state
  }

  /** The status step: a truthy string status replaces the stored one. */
  function ApplyStatus(state: Consultation, obj: Value): (r: Consultation)
    ensures r.symptoms == state.symptoms && r.appointment == state.appointment
    ensures var st := Prop(obj, "assessmentStatus");
            r.assessmentStatus == (if Truthy(st) && st.Str? then st else state.assessmentStatus)
  {
    var st := Prop(obj, "assessmentStatus");
    if Truthy(st) && st.Str? then state.(assessmentStatus := st) else state
  }

  /** One parsed candidate: the consultation data it carries, if that is an object, goes
      through the symptom, appointment and status steps in turn. `None`: a step throws. */
  function ApplyParsed(state: Consultation, parsed: Value, phone: string): (r: Option<Consultation>)
    ensures !IsObjectLike(SelectConsultationData(parsed)) ==> r == Some(state)
    ensures r.Some? ==> state.symptoms <= r.value.symptoms
  {
    var obj := SelectConsultationData(parsed);
    if !IsObjectLike(obj) then Some(state)
    else
      match ApplySymptoms(state, obj)
      case None => None
      case Some(s1) => Some(ApplyStatus(ApplyAppointment(s1, obj, phone), obj))
  }

  /** The candidates in order. `parse` stands for `JSON.parse`: `None` is a candidate that
      does not parse, which is skipped. The objects it yields list each key once, holding the
      last value the text gave that key, as `JSON.parse` keeps it. */
  function ApplyCandidates(state: Consultation, cands: seq<string>, parse: string -> Option<Value>,
                           phone: string): (r: Option<Consultation>)
    ensures r.Some? ==> state.symptoms <= r.value.symptoms
    ensures (forall i :: 0 <= i < |cands| ==> parse(cands[i]).None?) ==> r == Some(state)
    decreases |cands|
  {
    if |cands| == 0 then Some(state)
    else
      var next := match parse(cands[0]) case None => Some(state) case Some(v) => ApplyParsed(state, v, phone);
      match next
      case None => None
      case Some(s) =>
        var rest := ApplyCandidates(s, cands[1..], parse, phone);
        assert rest.Some? ==> s.symptoms <= rest.value.symptoms;
        rest
  }

  // ---------------------------------------------------------------------------------------
  // The record polled from the agent module

  /** The poll's change test: symptoms, status or appointment differ (serialised
      comparison, taken here as equality of the values). */
  predicate Changed(prev: Consultation, latest: Consultation) {
    prev.symptoms != latest.symptoms || prev.assessmentStatus != latest.assessmentStatus
    || prev.appointment != latest.appointment
  }

  /** The merge of the module's record into the page's: a non-empty symptom list replaces
      the page's, a truthy status replaces the page's, and the appointment is merged with
      the mobile-number rule. */
  function MergeFresh(prev: Consultation, latest: Consultation, phone: string): (r: Consultation)
    ensures |latest.symptoms| > 0 ==> r.symptoms == latest.symptoms
    ensures |latest.symptoms| == 0 ==> r.symptoms == prev.symptoms
    ensures r.assessmentStatus == (if Truthy(latest.assessmentStatus) then latest.assessmentStatus else prev.assessmentStatus)
    ensures r.appointment.Keys == prev.appointment.Keys + latest.appointment.Keys + {"mobileNumber"}
    ensures MapGet(r.appointment, "mobileNumber")
         == MobileNumber(MapGet(latest.appointment, "mobileNumber"), MapGet(prev.appointment, "mobileNumber"), phone)
    ensures forall k :: k != "mobileNumber" ==>
      MapGet(r.appointment, k)
        == (if k in latest.appointment then latest.appointment[k] else MapGet(prev.appointment, k))
  {
    Consultation(
      if |latest.symptoms| > 0 then latest.symptoms else prev.symptoms,
      MergeAppointment(prev.appointment, latest.appointment, phone),
      Or(latest.assessmentStatus, prev.assessmentStatus))
  }

  /** The once-a-second poll: nothing changes unless the module's record differs. */
  function PollMerge(prev: Consultation, latest: Consultation, phone: string): (r: Consultation)
    ensures !Changed(prev, latest) ==> r == prev
    ensures Changed(prev, latest) ==> r == MergeFresh(prev, latest, phone)
  {
    if Changed(prev, latest) then MergeFresh(prev, latest, phone) else prev
  }

  /** Merging the module's record a second time changes nothing. */
  lemma MergeFreshIdempotent(prev: Consultation, latest: Consultation, phone: string)
    ensures MergeFresh(MergeFresh(prev, latest, phone), latest, phone) == MergeFresh(prev, latest, phone)
  {
    MergeAppointmentIdempotent(prev.appointment, latest.appointment, phone);
  }

  /** Polling the same record twice is polling it once. */
  lemma PollMergeIdempotent(prev: Consultation, latest: Consultation, phone: string)
    ensures PollMerge(PollMerge(prev, latest, phone), latest, phone) == PollMerge(prev, latest, phone)
  {
    MergeFreshIdempotent(prev, latest, phone);
  }

  // ---------------------------------------------------------------------------------------
  // The payment link of a booking message

  const BookingPhrases: seq<string> := ["appointment has been booked", "appointment is confirmed", "payment link"]
  const RzpPrefix: string := "https://rzp.io/"

  predicate NotSpace(c: char) {
    !IsJsSpace(c)
  }

  /** Length of the match of `/https:\/\/rzp\.io\/[^\s]+/` that starts at `p`, if any: the
      prefix and then the maximal run of non-space characters, at least one. */
  function RzpLinkAt(s: string, p: nat): (r: Option<nat>)
    requires p <= |s|
    ensures r.Some? <==> MatchesAt(s, RzpPrefix, p) && p + |RzpPrefix| < |s| && NotSpace(s[p + |RzpPrefix|])
    ensures r.Some? ==> p + r.value <= |s| && r.value > |RzpPrefix|
    ensures r.Some? ==> (forall k :: p + |RzpPrefix| <= k < p + r.value ==> NotSpace(s[k]))
                        && (p + r.value < |s| ==> IsJsSpace(s[p + r.value]))
  {
    if !MatchesAt(s, RzpPrefix, p) then None
    else
      var e := RunEnd(s, p + |RzpPrefix|, NotSpace);
      if e == p + |RzpPrefix| then None else Some(e - p)
  }

  /** The leftmost link match at or after `p`, as (start, length). */
  function RzpLinkFrom(s: string, p: nat): (r: Option<(nat, nat)>)
    requires p <= |s|
    ensures r.Some? ==> p <= r.value.0 <= |s| && RzpLinkAt(s, r.value.0) == Some(r.value.1)
    ensures r.Some? ==> forall q :: p <= q < r.value.0 ==> RzpLinkAt(s, q).None?
    ensures r.None? ==> forall q :: p <= q <= |s| ==> RzpLinkAt(s, q).None?
    decreases |s| - p
  {
    match RzpLinkAt(s, p)
    case Some(n) => Some((p, n))
    case None => if p == |s| then None else RzpLinkFrom(s, p + 1)
  }

  /** `message.match(/(https:\/\/rzp\.io\/[^\s]+)/)[1]`: the leftmost link, running up to the
      next white space or the end of the message. */
  function FindRzpLink(message: string): (r: Option<string>)
    ensures r.Some? ==> RzpPrefix < r.value && Contains(message, r.value)
    ensures r.Some? ==> forall k :: 0 <= k < |r.value| ==> NotSpace(r.value[k])
    ensures r.None? ==> forall q :: 0 <= q <= |message| ==> RzpLinkAt(message, q).None?
    ensures r.Some? <==> RzpLinkFrom(message, 0).Some?
    ensures r.Some? ==> exists q :: 0 <= q <= |message| && RzpLinkAt(message, q) == Some(|r.value|)
                                    && r.value == message[q..q + |r.value|]
                                    && forall q' :: 0 <= q' < q ==> RzpLinkAt(message, q').None?
  {
    match RzpLinkFrom(message, 0)
    case None => None
    case Some((q, n)) =>
      RzpLinkShape(message, q, n);
      Some(message[q..q + n])
  }

  /** A link match is a proper extension of the prefix, lies in the message and holds no
      white space. */
  lemma RzpLinkShape(message: string, q: nat, n: nat)
    requires q <= |message| && RzpLinkAt(message, q) == Some(n)
    ensures q + n <= |message|
    ensures var link := message[q..q + n];
            RzpPrefix < link && Contains(message, link)
            && forall k :: 0 <= k < |link| ==> NotSpace(link[k])
  {
    PrefixHasNoSpace();
    LinkShape(message, q, n, RzpPrefix);
  }

  lemma PrefixHasNoSpace()
    ensures forall k :: 0 <= k < |RzpPrefix| ==> NotSpace(RzpPrefix[k])
  {
  }

  /** A space-free prefix matched at `q` and followed by space-free text up to `q + n`. */
  lemma LinkShape(message: string, q: nat, n: nat, pre: string)
    requires MatchesAt(message, pre, q) && |pre| < n && q + n <= |message|
    requires forall k :: 0 <= k < |pre| ==> NotSpace(pre[k])
    requires forall k :: q + |pre| <= k < q + n ==> NotSpace(message[k])
    ensures var link := message[q..q + n];
            pre < link && Contains(message, link)
            && forall k :: 0 <= k < |link| ==> NotSpace(link[k])
  {
    var link := message[q..q + n];
    assert link[..|pre|] == message[q..q + |pre|];
    assert MatchesAt(message, link, q);
    ContainsAt(message, link, q);
    forall k | 0 <= k < |link|
      ensures NotSpace(link[k])
    {
      assert link[k] == message[q + k];
      if k < |pre| {
        assert message[q + k] == message[q..q + |pre|][k];
      }
    }
  }

  predicate MentionsBooking(message: string) {
    exists i :: 0 <= i < |BookingPhrases| && Contains(message, BookingPhrases[i])
  }

  /** The booking-message step: a message that mentions a booking and carries a payment
      link records the link, marks the appointment "Confirmed" and fills in the mobile
      number from the stored one or else the session's phone number. */
  function ApplyBookingLink(state: Consultation, message: string, phone: string): (r: Consultation)
    ensures r.symptoms == state.symptoms && r.assessmentStatus == state.assessmentStatus
    ensures !MentionsBooking(message) || FindRzpLink(message).None? ==> r == state
    ensures MentionsBooking(message) && FindRzpLink(message).Some? ==>
      && MapGet(r.appointment, "paymentLink") == Str(FindRzpLink(message).value)
      && MapGet(r.appointment, "status") == Str("Confirmed")
      && MapGet(r.appointment, "mobileNumber") == MobileNumber(Undefined, MapGet(state.appointment, "mobileNumber"), phone)
      && forall k :: k !in {"paymentLink", "status", "mobileNumber"} ==> MapGet(r.appointment, k) == MapGet(state.appointment, k)
  {
    if !MentionsBooking(message) then state
    else
      match FindRzpLink(message)
      case None => state
      case Some(link) =>
        state.(appointment := state.appointment["paymentLink" := Str(link)]["status" := Str("Confirmed")]
                              ["mobileNumber" := Or(MapGet(state.appointment, "mobileNumber"), Str(phone))])
  }

  /** A second identical booking message changes nothing more. */
  lemma ApplyBookingLinkIdempotent(state: Consultation, message: string, phone: string)
    ensures ApplyBookingLink(ApplyBookingLink(state, message, phone), message, phone)
         == ApplyBookingLink(state, message, phone)
  {
    var once := ApplyBookingLink(state, message, phone);
    var twice := ApplyBookingLink(once, message, phone);
    if MentionsBooking(message) && FindRzpLink(message).Some? {
      assert twice.appointment.Keys == once.appointment.Keys;
      forall k | k in twice.appointment
        ensures twice.appointment[k] == once.appointment[k]
      {
        assert MapGet(twice.appointment, k) == MapGet(once.appointment, k);
      }
    }
  }

  // ---------------------------------------------------------------------------------------
  // A whole debug message

  /** The debug-message handler on a message text: the booking-link step, then every
      candidate object the brace scan finds, then the merge of the module's latest record.
      An empty message changes nothing; `None` is a state update that throws. `parse` is
      `JSON.parse` as for `ApplyCandidates`. */
  method ApplyDebugMessage(state: Consultation, message: string, parse: string -> Option<Value>,
                           latest: Consultation, phone: string) returns (r: Option<Consultation>)
    ensures message == "" ==> r == Some(state)
    ensures message != "" && r.Some? ==>
      && (|latest.symptoms| > 0 ==> r.value.symptoms == latest.symptoms)
      && (|latest.symptoms| == 0 ==> state.symptoms <= r.value.symptoms)
      && (Truthy(latest.assessmentStatus) ==> r.value.assessmentStatus == latest.assessmentStatus)
      && (phone != "" ==> Truthy(MapGet(r.value.appointment, "mobileNumber")))
    ensures message != "" && (forall i :: 0 <= i < |message| ==> message[i] != '{') ==>
      r == Some(MergeFresh(ApplyBookingLink(state, message, phone), latest, phone))
    ensures r == DebugMessageResult(state, message, ScanClamped(message, 0, 0, -1), parse, latest, phone)
  {
    if message == "" {
      return Some(state);
    }
    var booked := ApplyBookingLink(state, message, phone);
    var cands, spans := ScanCandidates(message);
    var scanned := ApplyCandidates(booked, cands, parse, phone);
    if scanned.None? {
      return None;
    }
    r := Some(MergeFresh(scanned.value, latest, phone));
  }

  /** The handler's result once the scan has found `spans`: the booking-link step, the
      candidates those spans cover in order, then the merge of the module's latest record. */
  function DebugMessageResult(state: Consultation, message: string, spans: seq<Span>,
                              parse: string -> Option<Value>, latest: Consultation, phone: string)
    : Option<Consultation>
  {
    if message == "" then Some(state)
    else
      match ApplyCandidates(ApplyBookingLink(state, message, phone), SpanTexts(message, spans), parse, phone)
      case None => None
      case Some(s) => Some(MergeFresh(s, latest, phone))
  }

  /** Where no prefix of the message closes more braces than it opens, the page's own scan
      (count not clamped) hands the handler the same candidates, so the handler ends in the
      same state. */
  lemma DebugMessageAsWrittenAgrees(state: Consultation, message: string, parse: string -> Option<Value>,
                                    latest: Consultation, phone: string)
    requires forall j :: 0 <= j <= |message| ==> Net(message[..j]) >= 0
    ensures DebugMessageResult(state, message, ScanAsWritten(message, 0, 0, -1), parse, latest, phone)
         == DebugMessageResult(state, message, ScanClamped(message, 0, 0, -1), parse, latest, phone)
  {
    ScanAsWrittenAgrees(message);
  }

  // ---------------------------------------------------------------------------------------
  // Picking a slot

  /** The slot pick: `selectedTime` is the slot and `time` the text before its first " to ". */
  function SelectSlot(state: Consultation, slot: string): (r: Consultation)
    ensures r.symptoms == state.symptoms && r.assessmentStatus == state.assessmentStatus
    ensures MapGet(r.appointment, "selectedTime") == Str(slot)
    ensures MapGet(r.appointment, "time") == Str(Before(slot, " to "))
    ensures forall k :: k != "selectedTime" && k != "time" ==> MapGet(r.appointment, k) == MapGet(state.appointment, k)
  {
    state.(appointment := state.appointment["selectedTime" := Str(slot)]["time" := Str(Split(slot, " to ")[0])])
  }

  /** For a slot line the page offers, the stored time is the rendered start hour, the same
      start time `getStartTimeFromSlot` recovers. */
  lemma SelectSlotOfSlotLine(state: Consultation, start: nat, end: nat)
    ensures MapGet(SelectSlot(state, FormatSlot(start, end)).appointment, "time") == Str(FormatHour(start))
    ensures MapGet(SelectSlot(state, FormatSlot(start, end)).appointment, "time")
         == Str(GetStartTimeFromSlot(FormatSlot(start, end)))
  {
    FirstSeparatorOfSlotLine(start, end);
    StartTimeOfSlotLine(start, end);
  }
}

=== FILE: stage_prompt.dfy ===
/** The conversation stages of the voice agent: which system prompt a stage selects and
    the directive a stage change hands back to the voice session. */
module StagePrompt {
  import opened Common
  import opened JsValue

  /** A filled-in prompt template; every template has fixed text, so none is empty. */
  type Prompt = s: string | s != "" witness "prompt"

  /** The four prompts of one session, already filled with the user and their appointments. */
  datatype StagePrompts = StagePrompts(initial: Prompt, symptom: Prompt, booking: Prompt, appointmentLookup: Prompt)

  /** The stage names the stage-change tool declares. */
  const Stages: seq<string> := ["initial", "symptom", "booking", "appointmentLookup"]

  /** The prompt table as an object literal keyed by stage name. */
  function Table(p: StagePrompts): (t: map<string, string>)
    ensures forall k :: k in t <==> k in Stages
  {
    map["initial" := p.initial, "symptom" := p.symptom, "booking" := p.booking,
        "appointmentLookup" := p.appointmentLookup]
  }

  /** The property key a stage argument names; an omitted argument defaults to "initial". */
  function StageKey(stage: Option<string>): string {
    if stage.None? then "initial" else stage.value
  }

  /** `getSystemPrompt(..., currentStage)` as written: `agentPrompts[currentStage] ||
      agentPrompts.initial`, a read that also reaches the members every object inherits. */
  function SystemPromptAsWritten(p: StagePrompts, stage: Option<string>): (r: PropertyRead)
    ensures r.Inherited? <==> StageKey(stage) in ObjectPrototypeMembers
    ensures StageKey(stage) !in ObjectPrototypeMembers ==> r == Own(SystemPrompt(p, stage))
  {
    ReadLiteralOr(Table(p), StageKey(stage), p.initial)
  }

  /** `getSystemPrompt` as intended: the prompt of a declared stage, and the initial prompt
      for any other name. */
  function SystemPrompt(p: StagePrompts, stage: Option<string>): (r: Prompt)
    ensures StageKey(stage) == "initial" ==> r == p.initial
    ensures StageKey(stage) == "symptom" ==> r == p.symptom
    ensures StageKey(stage) == "booking" ==> r == p.booking
    ensures StageKey(stage) == "appointmentLookup" ==> r == p.appointmentLookup
    ensures StageKey(stage) !in Stages ==> r == p.initial
  {
    var key := StageKey(stage);
    if key in Table(p) then Table(p)[key] else p.initial
  }

  /** A stage name inherited from `Object.prototype` selects an inherited function, which is
      truthy and so is returned instead of the initial prompt. */
  lemma SystemPromptOfInheritedName(p: StagePrompts)
    ensures SystemPromptAsWritten(p, Some("toString")) == Inherited("toString")
    ensures SystemPrompt(p, Some("toString")) == p.initial
  {
  }

  /** For every other stage name the code as written and the intended lookup agree. */
  lemma SystemPromptAgreesOffPrototype(p: StagePrompts, stage: Option<string>)
    requires StageKey(stage) !in ObjectPrototypeMembers
    ensures SystemPromptAsWritten(p, stage) == Own(SystemPrompt(p, stage))
  {
  }

  /** What a stage change hands back to the voice session: `type`, `systemPrompt`, `voice`,
      `temperature` (in tenths) and `languageHint`. */
  datatype StageDirective = StageDirective(kind: string, systemPrompt: Prompt, voice: string,
                                           temperatureTenths: nat, languageHint: string)

  /** The stage-change tool and the session's new-stage handler: the prompt of the requested
      stage, the "Jessica" voice, temperature 0.3 and English as the language hint. */
  function ChangeStage(p: StagePrompts, newStage: Option<string>): (r: StageDirective)
    ensures r.kind == "new-stage" && r.voice == "Jessica" && r.temperatureTenths == 3 && r.languageHint == "en"
    ensures StageKey(newStage) in Stages ==> r.systemPrompt == Table(p)[StageKey(newStage)]
    ensures StageKey(newStage) !in Stages ==> r.systemPrompt == p.initial
  {
    StageDirective("new-stage", SystemPrompt(p, newStage), "Jessica", 3, "en")
  }

  /** Off the inherited names the directive carries exactly the prompt the lookup as written
      reads; for "constructor" the code as written hands over the inherited member, while the
      directive carries the initial prompt. */
  lemma ChangeStageAgainstAsWritten(p: StagePrompts, newStage: Option<string>)
    ensures StageKey(newStage) !in ObjectPrototypeMembers ==>
      SystemPromptAsWritten(p, newStage) == Own(ChangeStage(p, newStage).systemPrompt)
    ensures SystemPromptAsWritten(p, Some("constructor")) == Inherited("constructor")
    ensures ChangeStage(p, Some("constructor")).systemPrompt == p.initial
  {
    if StageKey(newStage) !in ObjectPrototypeMembers {
      SystemPromptAgreesOffPrototype(p, newStage);
    }
  }

  /** When the four templates differ, the directive's prompt tells which declared stage was
      requested: distinct stages never share a prompt. */
  lemma ChangeStageDistinguishesStages(p: StagePrompts, i: nat, j: nat)
    requires |{p.initial, p.symptom, p.booking, p.appointmentLookup}| == 4
    requires i < |Stages| && j < |Stages| && i != j
    ensures ChangeStage(p, Some(Stages[i])).systemPrompt != ChangeStage(p, Some(Stages[j])).systemPrompt
  {
    var t := Table(p);
    assert t[Stages[0]] == p.initial && t[Stages[1]] == p.symptom;
    assert t[Stages[2]] == p.booking && t[Stages[3]] == p.appointmentLookup;
  }
}

=== FILE: text.dfy ===
/** Small generic building blocks: an optional value and an order-preserving filter. */
module Common {

  datatype Option<+T> = None | Some(value: T)

  /** The elements of `xs` that satisfy `p`, in their original order (`Array.prototype.filter`). */
  function Keep<T>(xs: seq<T>, p: T -> bool): (r: seq<T>)
    ensures |r| <= |xs|
    ensures forall x :: x in r ==> x in xs && p(x)
    ensures forall x :: x in xs && p(x) ==> x in r
  {
    if |xs| == 0 then [] else (if p(xs[0]) then [xs[0]] else []) + Keep(xs[1..], p)
  }

  /** The filter keeps every satisfying element as often as it occurs and drops the rest. */
  lemma {:induction false} KeepCounts<T>(xs: seq<T>, p: T -> bool)
    ensures forall x :: x in xs ==> multiset(Keep(xs, p))[x] == if p(x) then multiset(xs)[x] else 0
  {
    if |xs| > 0 {
      KeepCounts(xs[1..], p);
      assert xs == [xs[0]] + xs[1..];
      forall x | x in xs
        ensures multiset(Keep(xs, p))[x] == if p(x) then multiset(xs)[x] else 0
      {
        if x !in xs[1..] {
          assert multiset(xs[1..])[x] == 0;
          assert multiset(Keep(xs[1..], p))[x] == 0;
        }
      }
    }
  }

  /** A concatenation `a + m + c + d` starts with `a` and ends with `c + d`. */
  lemma Framed<T>(a: seq<T>, m: seq<T>, c: seq<T>, d: seq<T>)
    ensures a <= a + m + c + d
    ensures (a + m + c + d)[|a + m + c + d| - |c| - |d|..] == c + d
  {
    assert (a + m + c + d)[..|a|] == a;
  }

  lemma KeepSingleton<T>(x: T, p: T -> bool)
    ensures Keep([x], p) == if p(x) then [x] else []
  {
    assert [x][1..] == [];
  }

  lemma {:induction false} KeepAppend<T>(a: seq<T>, b: seq<T>, p: T -> bool)
    ensures Keep(a + b, p) == Keep(a, p) + Keep(b, p)
  {
    if |a| == 0 {
      assert a + b == b;
    } else {
      assert (a + b)[0] == a[0];
      assert (a + b)[1..] == a[1..] + b;
      KeepAppend(a[1..], b, p);
    }
  }
}

/** Characters and strings as the source's JavaScript sees them: ASCII digits, the
    `\s` class of JavaScript regular expressions, decimal rendering and parsing,
    substring search, `split`/`join` and `trim`. */
module Text {
  import opened Common

  predicate IsDigit(c: char) {
    '0' <= c <= '9'
  }

  /** The `\s` class of JavaScript regular expressions, which is also what `trim` removes. */
  predicate IsJsSpace(c: char) {
    var n := c as int;
    (9 <= n <= 13) || n == 32 || n == 0xA0 || n == 0x1680 || (0x2000 <= n <= 0x200A)
    || n == 0x2028 || n == 0x2029 || n == 0x202F || n == 0x205F || n == 0x3000 || n == 0xFEFF
  }

  predicate AllDigits(s: string) {
    forall i :: 0 <= i < |s| ==> IsDigit(s[i])
  }

  function DigitChar(d: nat): (c: char)
    requires d < 10
    ensures IsDigit(c)
  {
    ('0' as int + d) as char
  }

  function DigitValue(c: char): nat
    requires IsDigit(c)
  {
    c as int - '0' as int
  }

  /** Decimal rendering of a natural number, as a template literal prints an integer. */
  function NatToString(n: nat): (s: string)
    ensures |s| > 0 && AllDigits(s)
    decreases n
  {
    if n < 10 then [DigitChar(n)] else NatToString(n / 10) + [DigitChar(n % 10)]
  }

  /** The value `parseInt` gives a non-empty string of decimal digits. */
  function DigitsValue(s: string): nat
    requires AllDigits(s)
  {
    if |s| == 0 then 0 else 10 * DigitsValue(s[..|s| - 1]) + DigitValue(s[|s| - 1])
  }

  /** Parsing the rendering of `n` gives `n` back. */
  lemma {:induction false} DigitsValueOfNatToString(n: nat)
    ensures DigitsValue(NatToString(n)) == n
  {
    var s := NatToString(n);
    if n >= 10 {
      assert s[..|s| - 1] == NatToString(n / 10);
      DigitsValueOfNatToString(n / 10);
    }
  }

  /** Length of the longest prefix of `s` whose characters all satisfy `p`: a greedy `[...]+`
      or `[...]*` run. */
  function LeadingRun(s: string, p: char -> bool): (n: nat)
    ensures n <= |s|
    ensures forall i :: 0 <= i < n ==> p(s[i])
    ensures n < |s| ==> !p(s[n])
  {
    if |s| > 0 && p(s[0]) then 1 + LeadingRun(s[1..], p) else 0
  }

  /** A run that stops where the characters stop satisfying `p` has the length of that prefix. */
  lemma LeadingRunOfPrefix(a: string, b: string, p: char -> bool)
    requires forall i :: 0 <= i < |a| ==> p(a[i])
    requires |b| > 0 ==> !p(b[0])
    ensures LeadingRun(a + b, p) == |a|
  {
    forall i | 0 <= i < |a|
      ensures p((a + b)[i])
    {
      assert (a + b)[i] == a[i];
    }
    if |b| > 0 {
      assert (a + b)[|a|] == b[0];
    }
  }

  predicate MatchesAt(s: string, pat: string, i: nat) {
    i + |pat| <= |s| && s[i..i + |pat|] == pat
  }

  /** The first position at or after `k` where `pat` occurs in `s`. */
  function IndexOfFrom(s: string, pat: string, k: nat): (r: Option<nat>)
    ensures r.Some? ==> k <= r.value && MatchesAt(s, pat, r.value)
    ensures r.Some? ==> forall j :: k <= j < r.value ==> !MatchesAt(s, pat, j)
    ensures r.None? ==> forall j :: k <= j ==> !MatchesAt(s, pat, j)
    decreases |s| - k
  {
    if k + |pat| > |s| then None
    else if s[k..k + |pat|] == pat then Some(k)
    else IndexOfFrom(s, pat, k + 1)
  }

  /** `s.indexOf(pat)`, with `None` for -1. */
  function IndexOf(s: string, pat: string): Option<nat> {
    IndexOfFrom(s, pat, 0)
  }

  /** `s.includes(pat)`. */
  predicate Contains(s: string, pat: string) {
    IndexOf(s, pat).Some?
  }

  lemma ContainsAt(s: string, pat: string, i: nat)
    requires MatchesAt(s, pat, i)
    ensures Contains(s, pat)
  {
  }

  lemma NotContainsAt(s: string, pat: string, i: nat)
    requires !Contains(s, pat)
    ensures !MatchesAt(s, pat, i)
  {
  }

  /** Every occurrence of `pat` inside `s` is an occurrence inside `a + s + b`. */
  lemma ContainsInfix(a: string, s: string, b: string, pat: string)
    requires Contains(s, pat)
    ensures Contains(a + s + b, pat)
  {
    var i := IndexOf(s, pat).value;
    assert (a + s + b)[|a| + i..|a| + i + |pat|] == s[i..i + |pat|];
    ContainsAt(a + s + b, pat, |a| + i);
  }

  /** The text before the first occurrence of `sep` (all of `s` when there is none). */
  function Before(s: string, sep: string): (r: string)
    ensures r <= s
    ensures IndexOf(s, sep).Some? ==> |r| == IndexOf(s, sep).value
    ensures IndexOf(s, sep).None? ==> r == s
  {
    match IndexOf(s, sep)
    case Some(i) => s[..i]
    case None => s
  }

  /** When the first occurrence of `sep` is at `i`, the text before it is `s[..i]`. */
  lemma BeforeAt(s: string, sep: string, i: nat)
    requires MatchesAt(s, sep, i)
    requires forall j: nat :: j < i ==> !MatchesAt(s, sep, j)
    ensures Before(s, sep) == s[..i]
  {
    assert IndexOf(s, sep) == Some(i);
  }

  /** The text after the first occurrence of `sep`, if there is one. */
  function After(s: string, sep: string): (r: Option<string>)
    requires |sep| > 0
    ensures r.Some? <==> Contains(s, sep)
    ensures r.Some? ==> s == Before(s, sep) + sep + r.value && |r.value| < |s|
  {
    match IndexOf(s, sep)
    case Some(i) => Some(s[i + |sep|..])
    case None => None
  }

  /** `xs.join(sep)`. */
  function Join(xs: seq<string>, sep: string): string {
    if |xs| == 0 then "" else if |xs| == 1 then xs[0] else xs[0] + sep + Join(xs[1..], sep)
  }

  /** `s.split(sep)` for a non-empty separator: the pieces between successive
      non-overlapping occurrences of `sep`, scanned left to right. */
  function Split(s: string, sep: string): (r: seq<string>)
    requires |sep| > 0
    ensures |r| >= 1
    ensures r[0] == Before(s, sep)
    decreases |s|
  {
    match After(s, sep)
    case Some(rest) => [Before(s, sep)] + Split(rest, sep)
    case None => [s]
  }

  lemma {:induction false} JoinOfSplit(s: string, sep: string)
    requires |sep| > 0
    ensures Join(Split(s, sep), sep) == s
    decreases |s|
  {
    match After(s, sep)
    case Some(rest) =>
      JoinOfSplit(rest, sep);
      var tail := Split(rest, sep);
      assert Split(s, sep) == [Before(s, sep)] + tail;
      assert (([Before(s, sep)] + tail)[1..]) == tail;
    case None =>
  }

  /** The text before the first occurrence holds no occurrence of its own. */
  lemma BeforeAvoidsSeparator(s: string, sep: string)
    requires |sep| > 0
    ensures !Contains(Before(s, sep), sep)
  {
    var b := Before(s, sep);
    forall j: nat | MatchesAt(b, sep, j)
      ensures MatchesAt(s, sep, j) && j < |b|
    {
      assert s[j..j + |sep|] == b[j..j + |sep|];
    }
  }

  /** No piece of a split contains the separator. */
  lemma {:induction false} SplitPiecesAvoidSeparator(s: string, sep: string)
    requires |sep| > 0
    ensures forall i :: 0 <= i < |Split(s, sep)| ==> !Contains(Split(s, sep)[i], sep)
    decreases |s|
  {
    var b := Before(s, sep);
    BeforeAvoidsSeparator(s, sep);
    match After(s, sep)
    case Some(rest) =>
      SplitPiecesAvoidSeparator(rest, sep);
      assert Split(s, sep) == [b] + Split(rest, sep);
    case None =>
  }

  function LowerChar(c: char): char {
    if 'A' <= c <= 'Z' then (c as int + 32) as char else c
  }

  /** `toLowerCase`, on ASCII letters. */
  function Lower(s: string): string {
    seq(|s|, i requires 0 <= i < |s| => LowerChar(s[i]))
  }

  function TrimStart(s: string): string {
    if |s| > 0 && IsJsSpace(s[0]) then TrimStart(s[1..]) else s
  }

  function TrimEnd(s: string): string {
    if |s| > 0 && IsJsSpace(s[|s| - 1]) then TrimEnd(s[..|s| - 1]) else s
  }

  /** `s.trim()`. */
  function Trim(s: string): string {
    TrimEnd(TrimStart(s))
  }
}

=== FILE: transcript_keywords.dfy ===
/** The keyword part of the transcript scraper: each category of appointment detail is read
    from the latest transcript line by testing fixed phrases in priority order, the first
    phrase present winning. */
module TranscriptKeywords {
  import opened Common
  import opened Text
  import opened JsValue
  import opened SlotFormat

  /** The first keyword at index `i` or later that `text` contains. */
  function FirstMatchFrom(text: string, keywords: seq<string>, i: nat): (r: Option<nat>)
    requires i <= |keywords|
    ensures r.Some? ==> i <= r.value < |keywords| && Contains(text, keywords[r.value])
    ensures r.Some? ==> forall j :: i <= j < r.value ==> !Contains(text, keywords[j])
    ensures r.None? ==> forall j :: i <= j < |keywords| ==> !Contains(text, keywords[j])
    decreases |keywords| - i
  {
    if i == |keywords| then None
    else if Contains(text, keywords[i]) then Some(i)
    else FirstMatchFrom(text, keywords, i + 1)
  }

  /** An `if (text.includes(k0)) … else if (text.includes(k1)) …` chain: the index of the
      first keyword present. */
  function FirstMatch(text: string, keywords: seq<string>): Option<nat> {
    FirstMatchFrom(text, keywords, 0)
  }

  /** A keyword present in the text is either chosen or beaten by an earlier one. */
  lemma FirstMatchPriority(text: string, keywords: seq<string>, i: nat)
    requires i < |keywords| && Contains(text, keywords[i])
    ensures FirstMatch(text, keywords).Some? && FirstMatch(text, keywords).value <= i
  {
  }

  /** The consultation-type phrases, looked for in the lower-cased text, and what each sets. */
  const ConsultationPhrases: seq<string> := ["online consultation", "in-person consultation"]
  const ConsultationKinds: seq<string> := ["Online", "In-person"]
  const Cities: seq<string> := ["Bangalore", "Hyderabad"]
  const Centres: seq<string> := ["Indiranagar", "Whitefield", "Banjara Hills", "Madhapur"]
  const Weeks: seq<string> := ["this week", "next week"]
  /** The scraper's day list: Monday to Saturday, with no Sunday. */
  const Days: seq<string> := ["Monday", "Tuesday", "Wednesday", "Thursday", "Friday", "Saturday"]
  const DayAbbrevs: seq<string> := ["mon", "tue", "wed", "thu", "fri", "sat"]
  const ConfirmationPhrases: seq<string> := ["appointment is confirmed", "appointment has been booked"]

  /** The appointment fields the keyword checks write. */
  const KeywordFields: set<string> :=
    {"type", "consultationType", "city", "center", "campusId", "weekSelection", "day", "selectedDay", "status"}

  /** The value an `if … else if …` keyword chain assigns: `values[i]` for the first keyword
      `i` present, nothing when none is. */
  function Choose(text: string, keywords: seq<string>, values: seq<string>): (r: Option<string>)
    requires |values| == |keywords|
    ensures r.Some? <==> exists j :: 0 <= j < |keywords| && Contains(text, keywords[j])
    ensures r.Some? ==> exists i :: 0 <= i < |keywords| && Contains(text, keywords[i]) && r.value == values[i]
                                    && forall j :: 0 <= j < i ==> !Contains(text, keywords[j])
  {
    match FirstMatch(text, keywords)
    case None => None
    case Some(i) => Some(values[i])
  }

  /** `appt[field] = choice` when a keyword chose a value. */
  function Put(appt: map<string, Value>, field: string, choice: Option<string>): map<string, Value> {
    if choice.Some? then appt[field := Str(choice.value)] else appt
  }

  /** What a field holds after a `Put` chain: the chosen value, else what it held before. */
  function Chosen(appt: map<string, Value>, field: string, choice: Option<string>): Value {
    if choice.Some? then Str(choice.value) else MapGet(appt, field)
  }

  /** What each keyword chain of the scraper chose, before anything is written. */
  datatype KeywordChoices = KeywordChoices(kind: Option<string>, city: Option<string>, centre: Option<string>,
                                           week: Option<string>, day: Option<string>, abbrev: Option<string>,
                                           confirmed: bool)

  /** The keyword chains run on one transcript line. The consultation type is looked for in the
      lower-cased line; the other phrases are matched as written. */
  function ChooseKeywords(text: string): KeywordChoices {
    KeywordChoices(
      Choose(Lower(text), ConsultationPhrases, ConsultationKinds),
      Choose(text, Cities, Cities),
      Choose(text, Centres, Centres),
      Choose(text, Weeks, Weeks),
      Choose(text, Days, Days),
      Choose(text, Days, DayAbbrevs),
      FirstMatch(text, ConfirmationPhrases).Some?)
  }

  /** The assignments the chains make: the type and consultation type together, the city,
      the centre and campus id together, the week, the day and its abbreviation, and the
      status "Confirmed". */
  function WriteChoices(appt: map<string, Value>, c: KeywordChoices): map<string, Value> {
    var a1 := Put(Put(appt, "type", c.kind), "consultationType", c.kind);
    var a2 := Put(Put(Put(a1, "city", c.city), "center", c.centre), "campusId", c.centre);
    var a3 := Put(Put(Put(a2, "weekSelection", c.week), "day", c.day), "selectedDay", c.abbrev);
    Put(a3, "status", if c.confirmed then Some("Confirmed") else None)
  }

  /** The keyword checks of `updateConsultationDataFromTranscript(text)` on the appointment. */
  function ApplyTranscriptKeywords(appt: map<string, Value>, text: string): (r: map<string, Value>)
    ensures forall k :: k !in KeywordFields ==> MapGet(r, k) == MapGet(appt, k)
    ensures MapGet(r, "status") == if ChooseKeywords(text).confirmed then Str("Confirmed") else MapGet(appt, "status")
  {
    WriteChoicesFields(appt, ChooseKeywords(text));
    WriteChoices(appt, ChooseKeywords(text))
  }

  /** Reading a field after a `Put`. */
  lemma PutRead(appt: map<string, Value>, field: string, choice: Option<string>, k: string)
    ensures MapGet(Put(appt, field, choice), k) == (if k == field then Chosen(appt, field, choice) else MapGet(appt, k))
  {
  }

  /** Reading the map after the chains, one step at a time from the last write back. */
  lemma WriteChoicesRead(appt: map<string, Value>, c: KeywordChoices, k: string)
    ensures MapGet(WriteChoices(appt, c), k)
         == if k == "status" then (if c.confirmed then Str("Confirmed") else MapGet(appt, "status"))
            else if k == "selectedDay" then Chosen(appt, k, c.abbrev)
            else if k == "day" then Chosen(appt, k, c.day)
            else if k == "weekSelection" then Chosen(appt, k, c.week)
            else if k == "campusId" || k == "center" then Chosen(appt, k, c.centre)
            else if k == "city" then Chosen(appt, k, c.city)
            else if k == "consultationType" || k == "type" then Chosen(appt, k, c.kind)
            else MapGet(appt, k)
  {
    var a0 := Put(appt, "type", c.kind);
    var a1 := Put(a0, "consultationType", c.kind);
    var a2 := Put(a1, "city", c.city);
    var a3 := Put(a2, "center", c.centre);
    var a4 := Put(a3, "campusId", c.centre);
    var a5 := Put(a4, "weekSelection", c.week);
    var a6 := Put(a5, "day", c.day);
    var a7 := Put(a6, "selectedDay", c.abbrev);
    PutRead(appt, "type", c.kind, k);
    PutRead(a0, "consultationType", c.kind, k);
    PutRead(a1, "city", c.city, k);
    PutRead(a2, "center", c.centre, k);
    PutRead(a3, "campusId", c.centre, k);
    PutRead(a4, "weekSelection", c.week, k);
    PutRead(a5, "day", c.day, k);
    PutRead(a6, "selectedDay", c.abbrev, k);
    PutRead(a7, "status", if c.confirmed then Some("Confirmed") else None, k);
  }

  /** Each field ends up with its own chain's choice, and every other field is untouched:
      the chains write disjoint fields. */
  lemma WriteChoicesFields(appt: map<string, Value>, c: KeywordChoices)
    ensures var r := WriteChoices(appt, c);
            && MapGet(r, "type") == Chosen(appt, "type", c.kind)
            && MapGet(r, "consultationType") == Chosen(appt, "consultationType", c.kind)
            && MapGet(r, "city") == Chosen(appt, "city", c.city)
            && MapGet(r, "center") == Chosen(appt, "center", c.centre)
            && MapGet(r, "campusId") == Chosen(appt, "campusId", c.centre)
            && MapGet(r, "weekSelection") == Chosen(appt, "weekSelection", c.week)
            && MapGet(r, "day") == Chosen(appt, "day", c.day)
            && MapGet(r, "selectedDay") == Chosen(appt, "selectedDay", c.abbrev)
            && MapGet(r, "status") == (if c.confirmed then Str("Confirmed") else MapGet(appt, "status"))
            && forall k :: k !in KeywordFields ==> MapGet(r, k) == MapGet(appt, k)
  {
    WriteChoicesRead(appt, c, "type");
    WriteChoicesRead(appt, c, "consultationType");
    WriteChoicesRead(appt, c, "city");
    WriteChoicesRead(appt, c, "center");
    WriteChoicesRead(appt, c, "campusId");
    WriteChoicesRead(appt, c, "weekSelection");
    WriteChoicesRead(appt, c, "day");
    WriteChoicesRead(appt, c, "selectedDay");
    WriteChoicesRead(appt, c, "status");
    forall k | k !in KeywordFields
      ensures MapGet(WriteChoices(appt, c), k) == MapGet(appt, k)
    {
      WriteChoicesRead(appt, c, k);
    }
  }

  /** Bangalore is checked before Hyderabad; with neither, the city is left as it was. */
  lemma CityPriority(appt: map<string, Value>, text: string)
    ensures Contains(text, "Bangalore") ==> MapGet(ApplyTranscriptKeywords(appt, text), "city") == Str("Bangalore")
    ensures !Contains(text, "Bangalore") && Contains(text, "Hyderabad") ==>
      MapGet(ApplyTranscriptKeywords(appt, text), "city") == Str("Hyderabad")
    ensures !Contains(text, "Bangalore") && !Contains(text, "Hyderabad") ==>
      MapGet(ApplyTranscriptKeywords(appt, text), "city") == MapGet(appt, "city")
  {
    WriteChoicesFields(appt, ChooseKeywords(text));
    if Contains(text, "Bangalore") {
      FirstMatchPriority(text, Cities, 0);
    } else if Contains(text, "Hyderabad") {
      FirstMatchPriority(text, Cities, 1);
    }
  }

  /** The first centre mentioned, in the order Indiranagar, Whitefield, Banjara Hills,
      Madhapur, sets both the centre and the campus id. */
  lemma CentrePriority(appt: map<string, Value>, text: string, i: nat)
    requires i < |Centres| && Contains(text, Centres[i])
    requires forall j :: 0 <= j < i ==> !Contains(text, Centres[j])
    ensures var r := ApplyTranscriptKeywords(appt, text);
            MapGet(r, "center") == Str(Centres[i]) && MapGet(r, "campusId") == Str(Centres[i])
  {
    WriteChoicesFields(appt, ChooseKeywords(text));
    FirstMatchPriority(text, Centres, i);
  }

  /** "this week" is checked before "next week". */
  lemma WeekPriority(appt: map<string, Value>, text: string)
    ensures Contains(text, "this week") ==>
      MapGet(ApplyTranscriptKeywords(appt, text), "weekSelection") == Str("this week")
    ensures !Contains(text, "this week") && Contains(text, "next week") ==>
      MapGet(ApplyTranscriptKeywords(appt, text), "weekSelection") == Str("next week")
  {
    WriteChoicesFields(appt, ChooseKeywords(text));
    if Contains(text, "this week") {
      FirstMatchPriority(text, Weeks, 0);
    } else if Contains(text, "next week") {
      FirstMatchPriority(text, Weeks, 1);
    }
  }

  /** The consultation type is found whatever the case of the phrase, and online wins. */
  lemma ConsultationTypeIgnoresCase(appt: map<string, Value>, text: string)
    requires Contains(Lower(text), "online consultation")
    ensures var r := ApplyTranscriptKeywords(appt, text);
            MapGet(r, "type") == Str("Online") && MapGet(r, "consultationType") == Str("Online")
  {
    WriteChoicesFields(appt, ChooseKeywords(text));
    FirstMatchPriority(Lower(text), ConsultationPhrases, 0);
  }

  /** The day chosen is the first of Monday to Saturday in the list that the text mentions,
      and the stored abbreviation is the one the slot utility gives that day. */
  lemma DaySelection(appt: map<string, Value>, text: string, i: nat)
    requires i < |Days| && Contains(text, Days[i])
    requires forall j :: 0 <= j < i ==> !Contains(text, Days[j])
    ensures var r := ApplyTranscriptKeywords(appt, text);
            && MapGet(r, "day") == Str(Days[i])
            && MapGet(r, "selectedDay") == Str(DayAbbreviation(Days[i]))
  {
    var c := ChooseKeywords(text);
    FirstMatchPriority(text, Days, i);
    assert FirstMatch(text, Days) == Some(i);
    assert c.day == Some(Days[i]) && c.abbrev == Some(DayAbbrevs[i]);
    DayAbbrevsAgree(i);
    WriteChoicesFields(appt, c);
  }

  /** The scraper's abbreviations are the slot utility's. */
  lemma DayAbbrevsAgree(i: nat)
    requires i < |Days|
    ensures DayAbbrevs[i] == DayAbbreviation(Days[i])
  {
    if i == 0 {
      assert Days[0] == "Monday";
    } else if i == 1 {
      assert Days[1] == "Tuesday";
    } else if i == 2 {
      assert Days[2] == "Wednesday";
    } else if i == 3 {
      assert Days[3] == "Thursday";
    } else if i == 4 {
      assert Days[4] == "Friday";
    } else {
      assert Days[5] == "Saturday";
    }
  }

  /** Sunday is not in the scraper's list: a transcript naming only Sunday leaves the day as
      it was. */
  lemma SundayNeverSelected(appt: map<string, Value>)
    ensures var r := ApplyTranscriptKeywords(appt, "Sunday");
            MapGet(r, "day") == MapGet(appt, "day") && MapGet(r, "selectedDay") == MapGet(appt, "selectedDay")
  {
    WriteChoicesFields(appt, ChooseKeywords("Sunday"));
    forall j | 0 <= j < |Days|
      ensures !Contains("Sunday", Days[j])
    {
      forall q: nat
        ensures !MatchesAt("Sunday", Days[j], q)
      {
        if q + |Days[j]| <= 6 {
          assert q == 0 && |Days[j]| == 6;
          assert "Sunday"[0] != Days[j][0];
        }
      }
    }
  }

  /** A booking confirmation phrase marks the appointment confirmed. */
  lemma ConfirmationPhraseConfirms(appt: map<string, Value>, text: string)
    requires Contains(text, "appointment is confirmed") || Contains(text, "appointment has been booked")
    ensures MapGet(ApplyTranscriptKeywords(appt, text), "status") == Str("Confirmed")
  {
    WriteChoicesFields(appt, ChooseKeywords(text));
    if Contains(text, "appointment is confirmed") {
      FirstMatchPriority(text, ConfirmationPhrases, 0);
    } else {
      FirstMatchPriority(text, ConfirmationPhrases, 1);
    }
  }

  /** The keyword checks write only their own fields. */
  lemma KeywordsLeaveOtherFields(appt: map<string, Value>, text: string, k: string)
    requires k !in KeywordFields
    ensures MapGet(ApplyTranscriptKeywords(appt, text), k) == MapGet(appt, k)
  {
    WriteChoicesFields(appt, ChooseKeywords(text));
  }
}
